=== FILE: README.md ===
# Weather-station measurement propagation, in Dafny

This project models the measurement-propagation engine of a NestJS/Mongoose
weather-station service as an in-memory store, and proves properties of that model.

The store (`Documents.Store`) holds four collections:
- the stations, each with an optional `stationGroupId` pointer, a `currentMeasurement` snapshot and embedded measurements;
- the groups, each with a `stations` roster, a snapshot and embedded measurements;
- the station measurement records;
- the group measurement records.

The model follows the code's layers:

- `JsValues`: the JavaScript values a numeric field takes (`undefined`, `null`, `NaN`, a number), with `||`, `??`, `+` and the comparisons the guards use.
- `MeanCalculator`: `calculateArithmeticMean` as a left fold, and the three station means.
- `MeasurementMapper`: the group snapshot builder, `buildMeasurement`, `mapStationMeasurementDto`, and the body a `create` stores.
- `DayWindow`: the UTC-midnight day window of the day queries.
- `Documents`: the documents and the MongoDB operators on them (`$set`, `$unset`, `$addToSet`, `$pull`, `deleteOne`, `deleteMany`, the `$filter` on embedded measurements).
- `MeasurementStores`: the two measurement collections (`create`, `deleteByStationId`, `findMeasurementsByDay`).
- `Transactions`: the writes, and the transaction.
  - A write issued with the session changes only the transaction's view.
  - A write issued without the session is committed at once.
  - The end of `execute` commits the transaction's view on success, and keeps only the committed store when the body throws.
- `StationManager` and `GroupManager`: the transactional station and group services, parameterised by whether a call passes the session.
- `StationOrchestrator` and `GroupOrchestrator`: the operations run in one transaction.
- `LegacyStations` and `LegacyGroups`: the station and station-group services that the module registers, and the station-measurement service that the station service injects. The module itself does not provide that last service.
  - They write without sessions or transactions.
  - A new reading recomputes no group.
  - The group variant keeps its own measurement list. Its `addStation` pushes onto a path the group schema does not declare, so the roster never changes.

Errors are values (`Outcomes.Error`):
- `BadRequest` and `NotFound` for the exceptions the services throw;
- `TypeError` for a dereference of a missing value;
- `DuplicateKey` for an id collision.

The current time, `now`, is a parameter in milliseconds.

Several pieces of code share one definition in the model, because they do the same thing:
- the `buildMeasurement` of the two registered services and the mapper's `buildMeasurement`;
- the `create` and `findMeasurementsByDay` of the two measurement collections and the registered measurement service;
- the private `mapStationResponseDto` of the registered station service and the mapper's `mapStationResponseDto` (`StationManager.MapStationResponseDto`).

Where the code departs from the rules the service is meant to keep, the model follows the code:
- **Propagating a reading.** The group recompute that a new reading starts is handed the transaction's session but is not awaited. Whether its group write lands inside the transaction, before the commit, or after it is therefore a race. Since nothing waits for it, a failing recompute never rolls the station's reading back. `StationManager.AddMeasurement` reports the group to recompute and does not apply it.
- **Responding with a station.** Every station response goes through `mapStationResponseDto`, which reads the station's location without a check. The schema does not require a location. A station stored without one therefore gives `TypeError`. In `addMeasurement` that happens after the history and snapshot writes, so the registered service keeps both writes and the transactional one rolls them back.
- **Day measurements.** `findByIdWithCurrentDayMeasurements` filters the embedded measurements to today's window and then returns `mapStationResponseDto` of the result. The response has no measurements field, so the filtered list is dropped. See "## Findings".
- **Deleting a group.** Deleting a group reads it through `findById`, whose response mapper dereferences the location. A missing group, including a group deleted by an earlier call, gives `TypeError`, not `NotFound`.
- **Group history.** The group history is deleted by the key `stationId`, which group records do not carry. It is not a delete of that group's records.
- **Roster and pointer.** The pointer write of `addStation` and `deleteStation` is issued without the session. So a failing add or remove can leave a pointer and a roster that disagree (`GroupOrchestrator.MissingGroupLeavesDanglingPointer`, `GroupOrchestrator.RemovingLastMemberLeavesStaleRoster`). The roster and the stations' pointers are meant to agree.

## Model

| member | source | states |
|---|---|---|
| JsValues.PositivityGuardRejectsExactly | src/stations/services/database/stations.service.ts:161-163 | `(t \|\| 0) <= 0` rejects exactly the temperatures that are not a number above zero: absent, null, NaN, zero and negative ones |
| JsValues.PositivityCheckIsGuardNegation | src/stations/services/station-groups.service.ts:129 | `(t \|\| 0) > 0` accepts exactly what `(t \|\| 0) <= 0` rejects, i.e. the numbers above zero |
| MeanCalculator.ReduceSumClosedForm | src/stations/services/measurements-calculations.service.ts:39 | the reduce-sum is NaN exactly when some entry is undefined or NaN; otherwise it is the real sum, with null counting as 0 |
| MeanCalculator.ArithmeticMean | src/stations/services/measurements-calculations.service.ts:32-43 | the mean is 0 for an empty list, NaN for a poisoned list, and otherwise the sum divided by the length |
| MeanCalculator.ArithmeticMeanPermutation | src/stations/services/measurements-calculations.service.ts:32-43 | reordering the numbers does not change the mean |
| MeanCalculator.MeanPermutation | src/stations/services/measurements-calculations.service.ts:39-40 | the mathematical mean is independent of the order of the samples |
| MeanCalculator.MeanBetweenMinAndMax | src/stations/services/measurements-calculations.service.ts:39-42 | the mean of a non-empty list lies between its smallest and its largest sample |
| MeanCalculator.KeptTemperatures | src/stations/services/measurements-calculations.service.ts:7-11 | the kept temperatures are exactly the members' snapshot temperatures that are numbers above zero, each as often as it occurs among the members |
| MeanCalculator.StationsTemperatureMean | src/stations/services/measurements-calculations.service.ts:6-14 | fails with TypeError iff some member has no snapshot; otherwise gives the mean of the kept temperatures |
| MeanCalculator.StationsHumidityMean | src/stations/services/measurements-calculations.service.ts:16-22 | averages every member's humidity, unfiltered, over the member count; 0 for no members; TypeError when a snapshot is missing |
| MeanCalculator.StationsAirPressureMean | src/stations/services/measurements-calculations.service.ts:24-30 | averages every member's air pressure, unfiltered, over the member count; 0 for no members; TypeError when a snapshot is missing |
| MeanCalculator.TemperatureMeanRange | src/stations/services/measurements-calculations.service.ts:6-14 | the temperature mean is 0 iff no temperature is kept; otherwise it is positive and between the smallest and largest kept temperature |
| MeanCalculator.HumidityMeanOfPresentValues | src/stations/services/measurements-calculations.service.ts:16-22 | when every humidity is a number, the humidity mean is their plain mean |
| MeanCalculator.MeansArePermutationInvariant | src/stations/services/measurements-calculations.service.ts:6-30 | the three means do not depend on the order of the member stations |
| MeasurementMapper.BuildGroupStationMeasurement | src/stations/services/mappers/measurement.mapper.ts:12-26 | the group snapshot is dated now and carries the three means (the pressure fallback never applies); TypeError iff a member lacks a snapshot |
| MeasurementMapper.GroupTemperatureGuard | src/stations/services/database/station-groups.service.ts:91-96 | the group snapshot fails the positivity guard exactly when no member temperature is kept |
| MeasurementMapper.EmptyGroupIsRejected | src/stations/services/database/station-groups.service.ts:91-96 | a group without members builds a snapshot that the guard rejects |
| MeasurementMapper.BuildMeasurement | src/stations/services/mappers/measurement.mapper.ts:28-41 | an absent measurement gives `{}`; a present one is copied field by field |
| MeasurementMapper.MapStationMeasurementDto | src/stations/services/mappers/measurement.mapper.ts:43-52 | the DTO carries the measurement's date, and storing it gives the measurement back |
| MeasurementMapper.ToMeasurement | src/stations/services/database/station-measurements.service.ts:19-23 | a stored record is dated now unless the DTO carries its own date, and the other fields come from the DTO |
| MeasurementMapper.StoreAfterMapRoundTrip | src/stations/services/mappers/measurement.mapper.ts:43-52 | storing a mapped measurement gives it back, whatever the time of storing |
| MeasurementMapper.MapAfterStoreRoundTrip | src/stations/services/mappers/measurement.mapper.ts:43-52 | mapping a stored dated DTO gives the DTO back |
| MeasurementMapper.MapIsInjective | src/stations/services/mappers/measurement.mapper.ts:43-52 | distinct measurements map to distinct DTOs |
| DayWindow.StartOfUtcDay | src/stations/services/database/station-measurements.service.ts:36-37 | the UTC midnight of an instant is day-aligned and at most one day before it |
| DayWindow.StartOfUtcDayUnique | src/stations/services/database/station-measurements.service.ts:36-37 | any day-aligned instant less than a day before `t` is `t`'s UTC midnight |
| DayWindow.InDayWindowIsSameDay | src/stations/services/database/station-measurements.service.ts:36-45 | an instant is in a reference's window iff both fall on the same UTC day |
| DayWindow.WindowsCover | src/stations/services/station-measurements.service.ts:33-42 | every instant lies in the window of its own day |
| DayWindow.ConsecutiveWindowsAreAdjacent | src/stations/services/station-measurements.service.ts:33-42 | the next day's window starts where this one ends; the two are disjoint and cover both days |
| DayWindow.WindowsDisjointOrEqual | src/stations/services/database/station-measurements.service.ts:36-45 | two windows that share an instant are the same window |
| Documents.FindStation | src/stations/services/database/stations.service.ts:178-190 | the lookup by `_id` finds a station with that id, and finds none iff no station has it |
| Documents.SetGroupRef | src/stations/services/database/stations.service.ts:212-249 | `$set`/`$unset` of the pointer changes only that station's pointer; a missing station changes nothing |
| Documents.SetSnapshot | src/stations/services/database/stations.service.ts:178-190 | `$set` of the snapshot changes only that station's snapshot |
| Documents.RemoveStation | src/stations/services/database/stations.service.ts:202-210 | `deleteOne` removes one station with the id, keeps every other station, and keeps ids unique |
| Documents.AddToSet | src/stations/services/database/station-groups.service.ts:135-143 | `$addToSet` leaves a roster that already lists the id unchanged, and otherwise appends the id |
| Documents.Pull | src/stations/services/database/station-groups.service.ts:165-173 | `$pull` removes every occurrence of the id and keeps every other entry, with its count |
| Documents.PullUndoesAddToSet | src/stations/services/database/station-groups.service.ts:128-182 | pulling an id that was just added to a roster without it gives that roster back |
| Documents.AddToSetKeepsNoDuplicates | src/stations/services/database/station-groups.service.ts:135-143 | a roster without duplicates keeps none under `$addToSet` |
| Documents.DeleteRecordsOf | src/stations/services/database/station-measurements.service.ts:28-30 | `deleteMany` removes every record of the owner and keeps every other record, with its count |
| Documents.MeasurementsOfDay | src/stations/services/database/stations.service.ts:100-130 | the `$filter` keeps exactly the embedded measurements in the day window |
| MeasurementStores.CreateRecord | src/stations/services/database/station-measurements.service.ts:14-26 | `create` appends one record for the owner, and every other owner's records are unchanged |
| MeasurementStores.FindMeasurementsByDay | src/stations/services/database/station-measurements.service.ts:32-49 | returns exactly the owner's measurements inside the day window of the reference |
| MeasurementStores.FindAfterAppend | src/stations/services/database/station-measurements.service.ts:14-49 | an appended record extends its owner's day query by its body iff it falls in the window |
| MeasurementStores.FindAfterCreate | src/stations/services/database/station-measurements.service.ts:14-49 | after a `create`, the owner's day query gains the new measurement at its end exactly when its date falls in the window; other owners' queries are unchanged |
| MeasurementStores.CreatedTodayIsFoundToday | src/stations/services/database/station-measurements.service.ts:14-49 | a record created without its own date is found by that day's query |
| MeasurementStores.DeleteByStationIdIdempotent | src/stations/services/database/station-measurements.service.ts:28-30 | a second `deleteByStationId` removes nothing more |
| MeasurementStores.DeleteThenFindIsEmpty | src/stations/services/database/station-measurements.service.ts:28-49 | after `deleteByStationId` the station's day queries are empty |
| MeasurementStores.DeleteKeepsOtherQueries | src/stations/services/database/station-measurements.service.ts:28-49 | `deleteByStationId` leaves every other station's day queries as they were |
| MeasurementStores.DeleteGroupRecordsByStationKey | src/stations/services/database/station-group-measurements.service.ts:27-29 | the filter's key is unknown to group records, so the delete removes either all of them or none of them |
| MeasurementStores.GroupDeleteIsNotByGroup | src/stations/services/database/station-group-measurements.service.ts:27-29 | under either reading of the filter, the delete differs from deleting exactly that group's records |
| Transactions.SessionlessKeepsViewsEqual | src/stations/services/stations.service.ts:182-214 | outside a transaction, a write leaves the two views of the store equal |
| Transactions.SessionWriteIsUndoneByAbort | src/stations/services/database/transactions/station-orchestrator.service.ts:16-28 | a write issued with the session is gone when the transaction body throws |
| Transactions.SessionlessWriteSurvivesAbort | src/stations/services/database/station-groups.service.ts:133 | a write issued without the session survives a throwing transaction body |
| Transactions.GroupRecordCreateIsNeverRolledBack | src/stations/services/database/station-group-measurements.service.ts:14-25 | the group collection's `create` takes no session, so its record is committed at once |
| StationManager.AcceptedMeasurement | src/stations/services/database/stations.service.ts:165-170 | the accepted reading is dated now, with the given temperature and humidity; air pressure is 0 exactly when nullish |
| StationManager.AddMeasurement | src/stations/services/database/stations.service.ts:156-200 | BadRequest with no write iff the guard rejects; otherwise the history is appended, then the snapshot set; NotFound after the append for a missing station; TypeError after both writes for a station without a location, and the mapped response otherwise; a recompute is named iff the station's pointer is truthy |
| StationManager.MapStationResponseDto | src/stations/services/mappers/station.mapper.ts:11-27 | TypeError iff the station has no location; otherwise a response with the station's id, location, pointer and mapped snapshot |
| StationManager.ResponseIsStationWithoutMeasurements | src/stations/services/mappers/station.mapper.ts:11-27 | two located stations get the same response iff they agree on everything but their embedded measurements |
| StationManager.MapStationResponses | src/stations/services/database/stations.service.ts:47-49 | mapping a list fails with TypeError iff some station has no location; otherwise each response is the mapped station at the same position |
| StationManager.HistoryRecordIsSnapshot | src/stations/services/database/stations.service.ts:165-190 | for an accepted reading of an existing station, the appended history record is the reading stored as the snapshot |
| StationManager.AcceptsExactlyPositiveTemperatures | src/stations/services/database/stations.service.ts:161-163 | a reading is refused iff its temperature is not a number above zero |
| StationManager.Delete | src/stations/services/database/stations.service.ts:202-210 | NotFound iff nothing is deleted; otherwise one station goes and the rest stay |
| StationManager.AddStationGroupId | src/stations/services/database/stations.service.ts:212-230 | sets only the pointer; NotFound with no change on a missing station |
| StationManager.DeleteStationGroupId | src/stations/services/database/stations.service.ts:232-249 | unsets only the pointer; NotFound with no change on a missing station |
| StationManager.DeleteStationGroupIdUndoesAdd | src/stations/services/database/stations.service.ts:212-249 | clearing a pointer just set on an ungrouped station gives the store back |
| StationManager.FindAllNotGrouped | src/stations/services/database/stations.service.ts:36-50 | fails with TypeError iff some station without a pointer has no location; otherwise responds with exactly the stations whose pointer is absent, null or empty, each mapped, in stored order |
| StationManager.NotGroupedStations | src/stations/services/database/stations.service.ts:37-46 | each stored station whose pointer is absent, null or empty is listed as often as it is stored, and no other station is listed |
| StationManager.NotGroupedStationsAppend | src/stations/services/database/stations.service.ts:37-46 | the listing keeps the stored order: listing two runs one after the other lists their concatenation |
| StationManager.NotGroupedStationsOne | src/stations/services/database/stations.service.ts:38-45 | a single station is listed iff its pointer is absent, null or empty |
| StationManager.FindEntitiesByStationGroupId | src/stations/services/database/stations.service.ts:88-95 | lists exactly the stations whose pointer is the group id |
| StationManager.GroupedAndUngroupedPartition | src/stations/services/database/stations.service.ts:36-95 | no station is listed both as ungrouped and as a member of a non-empty group id; every station is one or the other |
| StationManager.PointerChangesMoveStation | src/stations/services/database/stations.service.ts:212-249 | clearing a pointer lists the station as ungrouped; setting it lists the station as a member |
| StationManager.FindByIdWithCurrentDayMeasurements | src/stations/services/database/stations.service.ts:97-133 | NotFound iff missing; TypeError iff the station has no location; otherwise the mapped station response, which does not carry the filtered measurements |
| StationManager.DayFilterIsDiscarded | src/stations/services/database/stations.service.ts:97-133 | a measurement outside today's window changes nothing in the response, though the intended lookup keeps it on its own day and drops it on another |
| StationManager.FindByIdWithCurrentDayMeasurementsIntended | src/stations/services/database/stations.service.ts:97-131 | NotFound iff missing; TypeError iff the station has no location; otherwise the stored station with exactly the embedded measurements in today's window, and its response is the as-written one |
| StationManager.CurrentDayIsSameUtcDay | src/stations/services/database/stations.service.ts:97-131 | the intended lookup keeps exactly the embedded measurements of the same UTC day as now |
| GroupManager.AddMeasurement | src/stations/services/database/station-groups.service.ts:86-115 | TypeError when a member lacks a snapshot; BadRequest with no write when the temperature mean is not positive; NotFound on a missing group; otherwise only the group's snapshot changes |
| GroupManager.Members | src/stations/services/database/station-groups.service.ts:121-123 | the members read are the committed stations whose pointer is the group id |
| GroupManager.UpdateStationGroup | src/stations/services/database/station-groups.service.ts:117-126 | succeeds iff every member has a snapshot, some member temperature is kept and the group exists; then the group's snapshot is the one built from the members and its roster is untouched |
| GroupManager.RecomputeIgnoresRosterAndSessionStations | src/stations/services/database/station-groups.service.ts:117-126 | the recompute's outcome depends neither on the roster nor on the stations as the session sees them |
| GroupManager.AddStation | src/stations/services/database/station-groups.service.ts:128-152 | NotFound on a missing station; the pointer is set outside the session; on success the roster has the station and the snapshot is recomputed |
| GroupManager.AddStationStoresGroup | src/stations/services/database/station-groups.service.ts:128-152 | on success only the group's document changes, and it becomes the returned group |
| GroupManager.AddStationIsSetAdd | src/stations/services/database/station-groups.service.ts:135-143 | adding a station already on the roster leaves the roster unchanged |
| GroupManager.DeleteStation | src/stations/services/database/station-groups.service.ts:154-182 | NotFound on a missing station; the pointer is cleared outside the session; on success the station is off the roster |
| GroupManager.DeleteStationStoresGroup | src/stations/services/database/station-groups.service.ts:154-182 | on success only the group's document changes, and it becomes the returned group |
| GroupManager.RemovingLastMemberFails | src/stations/services/database/station-groups.service.ts:154-182 | removing the only station that points to the group fails with BadRequest |
| GroupManager.Delete | src/stations/services/database/station-groups.service.ts:73-84 | NotFound iff nothing is deleted; otherwise exactly that group goes |
| GroupManager.Create | src/stations/services/database/station-groups.service.ts:66-71 | a new group is dated now, with the given location, an empty roster and no measurements |
| GroupManager.FindById | src/stations/services/database/station-groups.service.ts:48-64 | the group is returned iff it exists and has a location; otherwise the mapper's dereference gives TypeError |
| StationOrchestrator.DeleteStationWithMeasurements | src/stations/services/database/transactions/station-orchestrator.service.ts:15-29 | NotFound with the store unchanged iff missing; otherwise the station and all its history records go, and nothing else changes |
| StationOrchestrator.SecondDeleteFails | src/stations/services/database/transactions/station-orchestrator.service.ts:18-25 | deleting the same station again fails with NotFound and changes nothing |
| StationOrchestrator.AddMeasurementAndPropagate | src/stations/services/database/transactions/station-orchestrator.service.ts:31-42 | a rejected reading, a missing station or a station without a location leaves the store unchanged; otherwise the history and the snapshot both get the reading and the result is the mapped response; a recompute is named iff the reading is accepted for a grouped station |
| StationOrchestrator.TransactionRemovesOrphanRecord | src/stations/services/database/transactions/station-orchestrator.service.ts:35-41 | the history record of a missing station, kept by the sessionless call, is rolled back here |
| GroupOrchestrator.DetachAll | src/stations/services/database/transactions/station-groups-orchestrator.service.ts:26-29 | the loop leaves the committed store alone, succeeds with the roster's length, and otherwise fails with NotFound |
| GroupOrchestrator.DetachAllKeepsIds | src/stations/services/database/transactions/station-groups-orchestrator.service.ts:26-29 | clearing pointers keeps the stations and their ids position by position |
| GroupOrchestrator.DetachAllSucceedsIff | src/stations/services/database/transactions/station-groups-orchestrator.service.ts:26-29 | the loop succeeds iff every roster id names a station |
| GroupOrchestrator.DetachAllClears | src/stations/services/database/transactions/station-groups-orchestrator.service.ts:26-29 | on success every listed station has no pointer, and every other station is unchanged |
| GroupOrchestrator.DeleteGroupWithDependencies | src/stations/services/database/transactions/station-groups-orchestrator.service.ts:20-46 | TypeError for a missing or location-less group; NotFound with no change for a missing roster station; otherwise the listed pointers are cleared, the group history is purged and the group goes |
| GroupOrchestrator.PurgeAndDelete | src/stations/services/database/transactions/station-groups-orchestrator.service.ts:31-44 | purges the group history and deletes the group, committing both; NotFound with no change when the group is gone |
| GroupOrchestrator.UnlistedMemberKeepsDanglingPointer | src/stations/services/database/transactions/station-groups-orchestrator.service.ts:26-29 | a station that points to the group but is not on its roster keeps its pointer to the deleted group |
| GroupOrchestrator.SecondGroupDeleteFails | src/stations/services/database/transactions/station-groups-orchestrator.service.ts:20-46 | deleting the same group again fails with TypeError and changes nothing |
| GroupOrchestrator.AddStationToGroupTransactional | src/stations/services/database/transactions/station-groups-orchestrator.service.ts:48-61 | on success the pointer is the group and the roster lists the station; on failure only the sessionless pointer write survives |
| GroupOrchestrator.AddStationCommitsGroup | src/stations/services/database/transactions/station-groups-orchestrator.service.ts:48-61 | on success exactly the group's document changes among the groups |
| GroupOrchestrator.MissingGroupLeavesDanglingPointer | src/stations/services/database/transactions/station-groups-orchestrator.service.ts:52-60 | adding a station to a missing group fails, but leaves the station pointing at the missing group |
| GroupOrchestrator.DeleteStationFromGroupTransactional | src/stations/services/database/transactions/station-groups-orchestrator.service.ts:63-74 | on success the station is off the roster and has no pointer; on failure only the sessionless pointer clear survives |
| GroupOrchestrator.RemovingLastMemberLeavesStaleRoster | src/stations/services/database/transactions/station-groups-orchestrator.service.ts:63-74 | removing the last member fails with BadRequest, yet the pointer stays cleared while the roster still lists the station |
| LegacyStations.AddMeasurement | src/stations/services/stations.service.ts:182-214 | BadRequest with no write iff the guard rejects; otherwise the history is appended even for a missing station (then NotFound), and the snapshot is kept even when the missing location gives TypeError; no group changes |
| LegacyStations.MissingStationLeavesOrphanRecord | src/stations/services/stations.service.ts:197-211 | a reading for a missing station fails with NotFound and leaves its record in the history |
| LegacyStations.AgreesWithTransactionalOnExistingStation | src/stations/services/stations.service.ts:182-214 | for an accepted reading of an existing station, the result matches the transactional call, and the stores match iff the station has a location |
| LegacyStations.Delete | src/stations/services/stations.service.ts:216-226 | NotFound iff nothing is deleted; the station's history is kept |
| LegacyStations.DeleteKeepsHistory | src/stations/services/stations.service.ts:216-226 | this delete keeps the station's history records, which the transactional delete removes |
| LegacyStations.AddStationGroupId | src/stations/services/stations.service.ts:72-85 | sets only the pointer; NotFound with no change on a missing station |
| LegacyStations.DeleteStationGroupId | src/stations/services/stations.service.ts:87-98 | unsets only the pointer; NotFound with no change on a missing station |
| LegacyStations.ClearUndoesSet | src/stations/services/stations.service.ts:72-98 | clearing a pointer just set on an ungrouped station gives the store back |
| LegacyStations.FindAllNotGrouped | src/stations/services/stations.service.ts:100-114 | fails with TypeError iff some station without a pointer has no location; otherwise responds with exactly the stations whose pointer is absent, null or empty |
| LegacyStations.FindByIdWithCurrentDayMeasurements | src/stations/services/stations.service.ts:34-70 | NotFound iff missing; TypeError iff the station has no location; otherwise the mapped station response, which does not carry the filtered measurements |
| LegacyStations.FindByIdWithCurrentDayMeasurementsIntended | src/stations/services/stations.service.ts:34-68 | NotFound iff missing; TypeError iff the station has no location; otherwise the stored station with exactly the embedded measurements of today's UTC day |
| LegacyStations.CreateThenFindByDay | src/stations/services/station-measurements.service.ts:16-46 | an undated reading created now is found by today's query for its station, after the earlier ones, and by no other station's query |
| LegacyStations.DayQueriesPartitionTime | src/stations/services/station-measurements.service.ts:29-46 | each record is found by its own day's query, and never by the queries of two consecutive days |
| LegacyGroups.AddMeasurement | src/stations/services/station-groups.service.ts:125-148 | never fails and returns the group as before; only a temperature above zero pushes a measurement, with pressure defaulting to 0 |
| LegacyGroups.ReturnedGroupIsStale | src/stations/services/station-groups.service.ts:137-144 | the returned group lacks the pushed measurement that the stored group has |
| LegacyGroups.AddStation | src/stations/services/station-groups.service.ts:150-155 | the push names `stationIds`, not the schema's roster `stations`, so the store is unchanged; the call returns the group as before |
| LegacyGroups.AddStationIntended | src/stations/services/station-groups.service.ts:150-155 | the intended push appends the station id to the roster even when it is already there, and returns the group as before |
| LegacyGroups.AddStationNeverLists | src/stations/services/station-groups.service.ts:150-155 | a station added as written is still not on the roster, where the intended push and the transactional set-add list it |
| LegacyGroups.PushKeepsDuplicates | src/stations/services/station-groups.service.ts:150-155 | the intended push lists an already listed station once more, where `$addToSet` would leave the roster unchanged |
| LegacyGroups.Delete | src/stations/services/station-groups.service.ts:157-161 | never fails; the count is 1 iff the group existed, and the group is gone afterwards |
| LegacyGroups.SecondDeleteCountsZero | src/stations/services/station-groups.service.ts:157-161 | a second delete counts 0 and changes nothing |
| LegacyGroups.Last | src/stations/services/station-groups.service.ts:101 | `slice(-1)[0]` is the last element, and absent exactly for an empty list |
| LegacyGroups.LastOfDayIndex | src/stations/services/station-groups.service.ts:83-101 | the position of the last stored measurement in today's window; absent iff none is in the window |
| LegacyGroups.CurrentIsLatestOfDay | src/stations/services/station-groups.service.ts:100-113 | filtering to the day and taking the last gives the latest stored measurement of the day, and `{}` iff there is none |
| LegacyGroups.FindById | src/stations/services/station-groups.service.ts:68-115 | TypeError iff the group is missing or has no location; otherwise its creation date, location, and the latest measurement of the day |
| LegacyGroups.ViewsInOrder | src/stations/services/station-groups.service.ts:50-65 | the mapping over the aggregate's groups fails with TypeError iff some listed group has no view, and otherwise gives each listed group's view in order |
| LegacyGroups.FindAll | src/stations/services/station-groups.service.ts:21-66 | over every stored group once: succeeds iff every stored group has a location, and then gives one view per stored group |
| LegacyGroups.CreateAsWritten | src/stations/services/station-groups.service.ts:117-123 | `Model.create` takes the lone class for a callback, so the store is unchanged whatever was requested; the call yields no group, or is refused on versions that reject callbacks |
| LegacyGroups.CreateAsWrittenStoresNothing | src/stations/services/station-groups.service.ts:117-123 | after `create` as written the groups are unchanged and the new id reads back as TypeError, where the intended `create` makes it readable |
| LegacyGroups.Create | src/stations/services/station-groups.service.ts:117-121 | the intended group is dated now, with the requested location, an empty roster and no measurements |
| LegacyGroups.CreatedGroupReadsBack | src/stations/services/station-groups.service.ts:117-121 | a group created with a location reads back with that location, its date and `{}` as its current measurement |

## Left out

- HTTP controllers, the application bootstrap and configuration, and the module wiring: they only route requests to the services.
- The group response mapper. The model's group reads return the stored group documents and views; a group without a location gives TypeError, as the mapper's dereference does.
- StationManager.MapStationResponseDto: the response's `createdDate` is not modelled, because the model's station document does not carry the creation date; the station mapper's other fields are.
- StationManager.FindByIdWithCurrentDayMeasurements and LegacyStations.FindByIdWithCurrentDayMeasurements return the response as the code does, without the day's measurements; the intended station with them is `FindByIdWithCurrentDayMeasurementsIntended` in each module.
- `src/stations/stations.service.ts` is not part of this model. It is an unregistered wrapper that calls Mongoose with callbacks.
- `DatabaseTransactionService` is not part of this model. The transaction is modelled as the rule that session writes are committed on success and discarded on failure. Session internals, write conflicts between session and sessionless writes to the same document, and transaction timeouts are not modelled.
- Floating point: numbers are reals, so rounding in sums and quotients is not modelled.
- One day is a fixed 86 400 000 ms. The local-time `setDate(getDate() + 1)` is not modelled, so a daylight-saving change is not either.
- StationManager.AddMeasurement: the group recompute it starts is not awaited. The model names the group and does not apply the recompute, so the timing and racing of concurrent recomputes are not modelled.
- A recompute that nobody awaits and that throws (BadRequest, NotFound or TypeError) becomes an unhandled promise rejection. Under Node's default settings that ends the process. That process-level effect is not modelled. The model only states that the station's reading is not rolled back.
- MeasurementStores.DeleteGroupRecordsByStationKey: how the server treats a filter key that the schema does not declare depends on configuration, so it is a parameter (`StrictQuery`) rather than a guess.
- LegacyGroups.AddStation: with the schema's strict mode off, the push creates a separate `stationIds` array. The model's group document does not carry that field. The roster is unchanged under either setting.
- LegacyGroups.CreateAsWritten: on versions that accept callbacks, the class is then invoked as the callback. What that invocation does is not modelled. The model only records that nothing is stored and no group is returned.
- The database `findAll` of groups and the other queries of both station services (`findAll`, `findById`, `findByStationGroupId`, `findMeasurementsBy` and `create` of a station, in the registered service as well as in the transactional one) are not modelled. They are reads or plain inserts outside the propagation engine. In both services, `findAll`'s find filter misspells the pointer as `stationsGroupId`.
- LegacyGroups.FindAll: the collection's natural order is a parameter. It must list each stored group exactly once, so the order is the only free choice.
- Object ids are opaque strings. Parsing a malformed id (which throws in `new Types.ObjectId`) and schema validation are not modelled.
- A snapshot that defaults to `{}` is modelled as absent. A DTO carries only its declared fields; a `date` key that is present but undefined is not modelled.
- MeanCalculator.StationsHumidityMean and MeanCalculator.StationsAirPressureMean are total: an undefined or NaN member value makes the mean NaN, and null counts as 0, rather than requiring the values to be present.

## Findings

| source | as written | input that shows it | evidently intended | confidence | as-written member | corrected member |
|---|---|---|---|---|---|---|
| src/stations/services/station-groups.service.ts:122 | `create` passes the class `StationGroupDto` to `Model.create` instead of the prepared `stationGroupDto`. A lone function argument is taken as a callback, so no group is stored | `create` with any location: the groups are unchanged afterwards, and the call yields no group or is refused as a callback | store the prepared DTO: dated now, with the requested location and empty lists | high; not executed | LegacyGroups.CreateAsWritten, LegacyGroups.CreateAsWrittenStoresNothing | LegacyGroups.Create, LegacyGroups.CreatedGroupReadsBack |
| src/stations/services/station-groups.service.ts:153 | `addStation` pushes onto `stationIds`, a path the group schema does not declare; the roster is `stations` | `addStation` of an unlisted station to an existing group: the station is still not on the roster afterwards | push the station id onto the roster `stations` | high; not executed | LegacyGroups.AddStation, LegacyGroups.AddStationNeverLists | LegacyGroups.AddStationIntended, LegacyGroups.PushKeepsDuplicates |
| src/stations/services/database/stations.service.ts:132 | `findByIdWithCurrentDayMeasurements` filters the embedded measurements to today's window and then returns `mapStationResponseDto`, whose response has no measurements field | a located station with a measurement dated yesterday: the response for today equals the response for yesterday's date, so the day's measurements never reach the caller | respond with the station and its measurements of the current UTC day | high; not executed | StationManager.FindByIdWithCurrentDayMeasurements, StationManager.DayFilterIsDiscarded | StationManager.FindByIdWithCurrentDayMeasurementsIntended, StationManager.CurrentDayIsSameUtcDay |
| src/stations/services/stations.service.ts:69 | the registered service's `findByIdWithCurrentDayMeasurements` also ends with its private `mapStationResponseDto`, dropping the filtered measurements | as in the row above, for the registered service | respond with the station and its measurements of the current UTC day | high; not executed | LegacyStations.FindByIdWithCurrentDayMeasurements | LegacyStations.FindByIdWithCurrentDayMeasurementsIntended |

=== FILE: day_window.dfy ===
/** The "one day" window the measurement queries use: from UTC midnight of a
    reference instant (inclusive) to one day later (exclusive). Instants are
    milliseconds since the Unix epoch; one day is a fixed 86 400 000 ms. */
module DayWindow {

  const DayMillis: int := 86_400_000

  /** `setUTCHours(0, 0, 0, 0)`: the UTC midnight at or before `t`. */
  function StartOfUtcDay(t: int): (r: int)
    ensures r <= t < r + DayMillis
    ensures r % DayMillis == 0
  {
    t - t % DayMillis
  }

  /** `start <= t < start + 1 day` with `start` the UTC midnight of `reference`. */
  predicate InDayWindow(t: int, reference: int) {
    var start := StartOfUtcDay(reference);
    start <= t < start + DayMillis
  }

  /** A midnight-aligned interval of one day contains exactly the instants whose
      UTC midnight is its start. */
  lemma StartOfUtcDayUnique(t: int, start: int)
    requires start % DayMillis == 0
    requires start <= t < start + DayMillis
    ensures StartOfUtcDay(t) == start
  {
    var s := StartOfUtcDay(t);
    var d := (s - start) / DayMillis;
    assert s - start == d * DayMillis;
    assert -DayMillis < d * DayMillis < DayMillis;
    assert d == 0;
  }

  /** Membership in a day window is "falls on the same UTC day as the reference". */
  lemma InDayWindowIsSameDay(t: int, reference: int)
    ensures InDayWindow(t, reference) <==> StartOfUtcDay(t) == StartOfUtcDay(reference)
  {
    if InDayWindow(t, reference) {
      StartOfUtcDayUnique(t, StartOfUtcDay(reference));
    }
  }

  /** Every instant lies in the window of its own day. */
  lemma WindowsCover(t: int)
    ensures InDayWindow(t, t)
  {
  }

  /** The window of the next day starts where this one ends, so the two never overlap
      and no instant falls between them. */
  lemma {:induction false} ConsecutiveWindowsAreAdjacent(reference: int)
    ensures StartOfUtcDay(reference + DayMillis) == StartOfUtcDay(reference) + DayMillis
    ensures forall t :: InDayWindow(t, reference) ==> !InDayWindow(t, reference + DayMillis)
    ensures forall t :: InDayWindow(t, reference) || InDayWindow(t, reference + DayMillis)
                        <==> StartOfUtcDay(reference) <= t < StartOfUtcDay(reference) + 2 * DayMillis
  {
    var s := StartOfUtcDay(reference);
    assert (s + DayMillis) % DayMillis == 0;
    StartOfUtcDayUnique(reference + DayMillis, s + DayMillis);
  }

  /** Two windows are either the same window or disjoint. */
  lemma WindowsDisjointOrEqual(t: int, a: int, b: int)
    requires InDayWindow(t, a) && InDayWindow(t, b)
    ensures StartOfUtcDay(a) == StartOfUtcDay(b)
  {
    InDayWindowIsSameDay(t, a);
    InDayWindowIsSameDay(t, b);
  }
}

=== FILE: documents.dfy ===
/** The documents of the store, held in memory: the `stations` collection (in
    natural order, as `find` without a sort returns it), the `station_groups`
    collection (keyed by `_id`), and the two measurement collections. Updates and
    deletes follow MongoDB's single-document operators: they act on the first
    document whose `_id` matches and do nothing when none does. */
module Documents {
  import opened Outcomes
  import opened JsValues
  import Seqs
  import DayWindow

  datatype Location = Location(name: string, indoor: bool, city: string, latitude: real, longitude: real)

  /** A stored measurement (snapshot, embedded array entry, or history record body). */
  datatype Measurement = Measurement(date: int, temperature: JsNum, humidity: JsNum, airPressure: JsNum)

  /** A station document. `location` is absent when the document was stored without
      one, which the schema allows. `groupRef` is `stationGroupId`; `None` is absent or
      null. `current` is `currentMeasurement`, absent until the first accepted reading.
      `measurements` is the embedded array of the station schema. */
  datatype Station = Station(id: string, location: Option<Location>, groupRef: Option<string>,
                             current: Option<Measurement>, measurements: seq<Measurement>)

  /** A group document. `roster` is the `stations` array. */
  datatype Group = Group(createdDate: Option<int>, location: Option<Location>, roster: seq<string>,
                         current: Option<Measurement>, measurements: seq<Measurement>)

  /** A document of a measurement collection: the owning station (or group) id and the reading. */
  datatype Record = Record(owner: string, m: Measurement)

  datatype Store = Store(stations: seq<Station>, groups: map<string, Group>,
                         stationHistory: seq<Record>, groupHistory: seq<Record>)

  /** `_id` is unique within the stations collection. */
  predicate UniqueIds(ss: seq<Station>) {
    forall i, j :: 0 <= i < j < |ss| ==> ss[i].id != ss[j].id
  }

  predicate Valid(db: Store) {
    UniqueIds(db.stations)
  }

  /** `stationGroupId` is truthy: present and not the empty string. */
  predicate IsGrouped(st: Station) {
    st.groupRef.Some? && st.groupRef.value != ""
  }

  /** The position of the first station with the given id. */
  function IndexOf(ss: seq<Station>, id: string): (r: Option<nat>)
    ensures r.Some? ==> r.value < |ss| && ss[r.value].id == id
    ensures r.Some? ==> forall j :: 0 <= j < r.value ==> ss[j].id != id
    ensures r.None? <==> forall j :: 0 <= j < |ss| ==> ss[j].id != id
  {
    if |ss| == 0 then None
    else if ss[0].id == id then Some(0)
    else
      match IndexOf(ss[1..], id)
      case None => None
      case Some(k) => Some(k + 1)
  }

  /** The first position holding `id` is the one `IndexOf` reports. */
  lemma IndexOfIsFirst(ss: seq<Station>, id: string, i: nat)
    requires i < |ss| && ss[i].id == id
    requires forall j :: 0 <= j < i ==> ss[j].id != id
    ensures IndexOf(ss, id) == Some(i)
  {
  }

  /** `IndexOf` looks only at the ids, position by position. */
  lemma IndexOfSameIds(ss: seq<Station>, ts: seq<Station>, id: string)
    requires |ss| == |ts| && forall i :: 0 <= i < |ss| ==> ss[i].id == ts[i].id
    ensures IndexOf(ss, id) == IndexOf(ts, id)
  {
    match IndexOf(ss, id)
    case None =>
    case Some(i) => IndexOfIsFirst(ts, id, i);
  }

  lemma IndexOfSameIdsEverywhere(ss: seq<Station>, ts: seq<Station>)
    requires |ss| == |ts| && forall i :: 0 <= i < |ss| ==> ss[i].id == ts[i].id
    ensures forall id :: IndexOf(ss, id) == IndexOf(ts, id)
  {
    forall id {
      IndexOfSameIds(ss, ts, id);
    }
  }

  /** Removing position `i` shifts the first occurrence of every other id accordingly. */
  lemma IndexOfAfterRemoval(ss: seq<Station>, i: nat)
    requires i < |ss| && IndexOf(ss, ss[i].id) == Some(i)
    ensures forall other :: other != ss[i].id ==>
      FindStation(ss[..i] + ss[i + 1..], other) == FindStation(ss, other)
  {
    forall other | other != ss[i].id {
      IndexOfAfterRemovalOne(ss, i, other);
    }
  }

  lemma IndexOfAfterRemovalOne(ss: seq<Station>, i: nat, other: string)
    requires i < |ss| && other != ss[i].id
    ensures FindStation(ss[..i] + ss[i + 1..], other) == FindStation(ss, other)
  {
    var r := ss[..i] + ss[i + 1..];
    assert |r| == |ss| - 1;
    assert forall j :: 0 <= j < i ==> r[j] == ss[j];
    assert forall j :: i <= j < |r| ==> r[j] == ss[j + 1];
    var k := IndexOf(ss, other);
    if k.Some? {
      var k' := if k.value < i then k.value else k.value - 1;
      assert r[k'] == ss[k.value];
      IndexOfIsFirst(r, other, k');
    } else {
      assert forall j :: 0 <= j < |r| ==> r[j].id != other;
    }
  }

  /** `findById`: the first station with the given id, if any. */
  function FindStation(ss: seq<Station>, id: string): (r: Option<Station>)
    ensures r.Some? ==> r.value in ss && r.value.id == id
    ensures r.None? <==> forall s :: s in ss ==> s.id != id
  {
    match IndexOf(ss, id)
    case None => None
    case Some(i) => Some(ss[i])
  }

  /** In a collection with unique ids, the station found is the one at its position. */
  lemma FindUnique(ss: seq<Station>, i: nat)
    requires UniqueIds(ss) && i < |ss|
    ensures FindStation(ss, ss[i].id) == Some(ss[i])
  {
  }

  /** Replaces the first station whose id is `id` by `st` (which keeps that id). */
  function ReplaceStation(ss: seq<Station>, id: string, st: Station): (r: seq<Station>)
    requires st.id == id
    ensures |r| == |ss|
    ensures forall i :: 0 <= i < |ss| ==> r[i].id == ss[i].id
    ensures FindStation(ss, id).Some? ==> FindStation(r, id) == Some(st)
    ensures FindStation(ss, id).None? ==> r == ss
    ensures forall other :: other != id ==> FindStation(r, other) == FindStation(ss, other)
  {
    match IndexOf(ss, id)
    case None => ss
    case Some(i) =>
      var r := ss[i := st];
      IndexOfSameIdsEverywhere(r, ss);
      r
  }

  /** Replacing a station keeps the ids, so it keeps them unique. */
  lemma ReplaceKeepsUnique(ss: seq<Station>, id: string, st: Station)
    requires st.id == id && UniqueIds(ss)
    ensures UniqueIds(ReplaceStation(ss, id, st))
  {
  }

  /** `$set: { stationGroupId }` (with `Some`) or `$unset: { stationGroupId: 1 }` (with `None`)
      on the station `id`; nothing else of any station changes. */
  function SetGroupRef(ss: seq<Station>, id: string, ref: Option<string>): (r: seq<Station>)
    ensures FindStation(ss, id).Some? ==> FindStation(r, id) == Some(FindStation(ss, id).value.(groupRef := ref))
    ensures FindStation(ss, id).None? ==> r == ss
    ensures forall other :: other != id ==> FindStation(r, other) == FindStation(ss, other)
    ensures |r| == |ss| && forall i :: 0 <= i < |ss| ==> r[i].id == ss[i].id
  {
    match FindStation(ss, id)
    case None => ss
    case Some(st) => ReplaceStation(ss, id, st.(groupRef := ref))
  }

  /** Setting a station's pointer twice leaves the second value. */
  lemma SetGroupRefTwice(ss: seq<Station>, id: string, a: Option<string>, b: Option<string>)
    ensures SetGroupRef(SetGroupRef(ss, id, a), id, b) == SetGroupRef(ss, id, b)
  {
    var once := SetGroupRef(ss, id, a);
    IndexOfSameIds(once, ss, id);
  }

  /** `$set: { currentMeasurement }` on the station `id`. */
  function SetSnapshot(ss: seq<Station>, id: string, m: Measurement): (r: seq<Station>)
    ensures FindStation(ss, id).Some? ==> FindStation(r, id) == Some(FindStation(ss, id).value.(current := Some(m)))
    ensures FindStation(ss, id).None? ==> r == ss
    ensures forall other :: other != id ==> FindStation(r, other) == FindStation(ss, other)
    ensures |r| == |ss| && forall i :: 0 <= i < |ss| ==> r[i].id == ss[i].id
  {
    match FindStation(ss, id)
    case None => ss
    case Some(st) => ReplaceStation(ss, id, st.(current := Some(m)))
  }

  /** `deleteOne({ _id: id })` on the stations collection. */
  function RemoveStation(ss: seq<Station>, id: string): (r: seq<Station>)
    ensures FindStation(ss, id).None? ==> r == ss
    ensures FindStation(ss, id).Some? ==> |r| == |ss| - 1
    ensures forall s :: s in r ==> s in ss
    ensures forall other :: other != id ==> FindStation(r, other) == FindStation(ss, other)
    ensures UniqueIds(ss) ==> UniqueIds(r) && FindStation(r, id).None?
  {
    match IndexOf(ss, id)
    case None => ss
    case Some(i) =>
      IndexOfAfterRemoval(ss, i);
      ss[..i] + ss[i + 1..]
  }

  /** `$addToSet`: appends `x` unless it is already present. */
  function AddToSet(xs: seq<string>, x: string): (r: seq<string>)
    ensures forall y :: y in r <==> y in xs || y == x
    ensures x in xs ==> r == xs
    ensures x !in xs ==> r == xs + [x]
  {
    if x in xs then xs else xs + [x]
  }

  /** `$pull`: removes every occurrence of `x`, keeping the other entries in order. */
  function Pull(xs: seq<string>, x: string): (r: seq<string>)
    ensures forall y :: y in r <==> y in xs && y != x
    ensures forall y :: y != x ==> multiset(r)[y] == multiset(xs)[y]
    ensures x !in r
  {
    Seqs.FilterCounts(xs, (y: string) => y != x);
    Seqs.Filter(xs, (y: string) => y != x)
  }

  /** Pulling an id undoes adding it, when it was not there before. */
  lemma PullUndoesAddToSet(xs: seq<string>, x: string)
    requires x !in xs
    ensures Pull(AddToSet(xs, x), x) == xs
  {
    Seqs.FilterAppend(xs, [x], (y: string) => y != x);
    Seqs.FilterAll(xs, (y: string) => y != x);
  }

  /** A roster without duplicates stays without duplicates under `$addToSet` and `$pull`. */
  predicate NoDuplicates(xs: seq<string>) {
    forall i, j :: 0 <= i < j < |xs| ==> xs[i] != xs[j]
  }

  lemma AddToSetKeepsNoDuplicates(xs: seq<string>, x: string)
    requires NoDuplicates(xs)
    ensures NoDuplicates(AddToSet(xs, x))
  {
  }

  /** The records of a measurement collection owned by `owner`. */
  function RecordsOf(recs: seq<Record>, owner: string): (r: seq<Record>)
    ensures forall rec :: rec in r <==> rec in recs && rec.owner == owner
  {
    Seqs.Filter(recs, (rec: Record) => rec.owner == owner)
  }

  /** `deleteMany({ <key>: owner })`: every record of `owner` goes, every other record stays. */
  function DeleteRecordsOf(recs: seq<Record>, owner: string): (r: seq<Record>)
    ensures forall rec :: rec in r <==> rec in recs && rec.owner != owner
    ensures forall rec: Record :: rec.owner != owner ==> multiset(r)[rec] == multiset(recs)[rec]
    ensures RecordsOf(r, owner) == []
  {
    var r := Seqs.Filter(recs, (rec: Record) => rec.owner != owner);
    Seqs.FilterCounts(recs, (rec: Record) => rec.owner != owner);
    Seqs.FilterNone(r, (rec: Record) => rec.owner == owner);
    r
  }

  /** The measurements of an embedded array that fall in the day window of `reference`. */
  function MeasurementsOfDay(ms: seq<Measurement>, reference: int): (r: seq<Measurement>)
    ensures forall m :: m in r <==> m in ms && DayWindow.InDayWindow(m.date, reference)
  {
    Seqs.Filter(ms, (m: Measurement) => DayWindow.InDayWindow(m.date, reference))
  }

  /** Appending a measurement extends the day's measurements by it exactly when it falls in the day. */
  lemma MeasurementsOfDayAppend(ms: seq<Measurement>, x: Measurement, reference: int)
    ensures MeasurementsOfDay(ms + [x], reference) ==
            MeasurementsOfDay(ms, reference) + (if DayWindow.InDayWindow(x.date, reference) then [x] else [])
  {
    Seqs.FilterAppend(ms, [x], (m: Measurement) => DayWindow.InDayWindow(m.date, reference));
    assert [x][1..] == [];
  }

  lemma MeasurementsOfDayEmpty(reference: int)
    ensures MeasurementsOfDay([], reference) == []
  {
  }
}

=== FILE: group_manager.dfy ===
/** The station-group service used by the transactional orchestrators: the group
    snapshot recompute, roster changes followed by a recompute, delete, create and
    the by-id read. The recompute selects its members by their group pointer, read
    without the session; the roster is never consulted. */
module GroupManager {
  import opened Outcomes
  import opened JsValues
  import opened Documents
  import opened Transactions
  import MeasurementMapper
  import MeanCalculator
  import StationManager
  import Seqs

  /** `addMeasurement(gid, stations)`: builds the group snapshot from `stations`, refuses
      it when its temperature fails the positivity guard, and otherwise sets it as the
      group's `currentMeasurement`. */
  function AddMeasurement(ctx: Ctx, s: Session, gid: string, stations: seq<Station>, now: int): (r: Step<Group>)
    ensures !MeanCalculator.AllHaveSnapshot(stations) ==> r.result == Err(TypeError)
    ensures MeanCalculator.AllHaveSnapshot(stations) && |MeanCalculator.KeptTemperatures(stations)| == 0 ==>
      r.result == Err(BadRequest)
    ensures r.result.Ok? <==>
      MeanCalculator.AllHaveSnapshot(stations) && |MeanCalculator.KeptTemperatures(stations)| > 0 &&
      gid in View(ctx, s).groups
    ensures (r.result.Err? && MeanCalculator.AllHaveSnapshot(stations) &&
             |MeanCalculator.KeptTemperatures(stations)| > 0) ==> r.result.error == NotFound
    ensures r.result.Ok? ==>
      r.result.value == View(ctx, s).groups[gid].(current :=
        Some(MeasurementMapper.BuildGroupStationMeasurement(stations, now).value)) &&
      View(r.ctx, s).groups == View(ctx, s).groups[gid := r.result.value]
    ensures r.result.Err? ==> View(r.ctx, s) == View(ctx, s)
    ensures View(r.ctx, s).stations == View(ctx, s).stations
    ensures View(r.ctx, s).stationHistory == View(ctx, s).stationHistory
    ensures View(r.ctx, s).groupHistory == View(ctx, s).groupHistory
    ensures s.InSession? ==> r.ctx.committed == ctx.committed
    ensures ValidCtx(ctx) ==> ValidCtx(r.ctx)
  {
    match MeasurementMapper.BuildGroupStationMeasurement(stations, now)
    case Err(e) => Step(Err(e), ctx)
    case Ok(m) =>
      MeasurementMapper.GroupTemperatureGuard(stations, now);
      if RejectedByPositivityGuard(m.temperature) then Step(Err(BadRequest), ctx)
      else
        var after := Perform(ctx, s, SetGroupSnapshot(gid, m));
        assert View(after, s) == WithGroupSnapshot(View(ctx, s), gid, m);
        if gid in View(after, s).groups then Step(Ok(View(after, s).groups[gid]), after)
        else Step(Err(NotFound), after)
  }

  /** The stations `updateStationGroup` aggregates: those whose pointer is `gid`, read
      from the committed store. */
  function Members(ctx: Ctx, gid: string): (r: seq<Station>)
    ensures forall st :: st in r <==> st in ctx.committed.stations && st.groupRef == Some(gid)
  {
    StationManager.FindEntitiesByStationGroupId(ctx.committed.stations, gid)
  }

  /** `updateStationGroup(gid)`: recomputes the group snapshot from its members. */
  function UpdateStationGroup(ctx: Ctx, s: Session, gid: string, now: int): (r: Step<Group>)
    ensures r.result.Ok? <==>
      MeanCalculator.AllHaveSnapshot(Members(ctx, gid)) &&
      |MeanCalculator.KeptTemperatures(Members(ctx, gid))| > 0 && gid in View(ctx, s).groups
    ensures r.result.Ok? ==>
      r.result.value.roster == View(ctx, s).groups[gid].roster &&
      r.result.value.current == Some(MeasurementMapper.BuildGroupStationMeasurement(Members(ctx, gid), now).value)
    ensures MeanCalculator.AllHaveSnapshot(Members(ctx, gid)) && |MeanCalculator.KeptTemperatures(Members(ctx, gid))| == 0 ==>
      r.result == Err(BadRequest)
    ensures r.result.Ok? ==> View(r.ctx, s).groups == View(ctx, s).groups[gid := r.result.value]
    ensures r.result.Err? ==> View(r.ctx, s) == View(ctx, s)
    ensures View(r.ctx, s).stations == View(ctx, s).stations
    ensures View(r.ctx, s).stationHistory == View(ctx, s).stationHistory
    ensures View(r.ctx, s).groupHistory == View(ctx, s).groupHistory
    ensures s.InSession? ==> r.ctx.committed == ctx.committed
    ensures ValidCtx(ctx) ==> ValidCtx(r.ctx)
  {
    AddMeasurement(ctx, s, gid, Members(ctx, gid), now)
  }

  /** The recompute looks at neither the roster nor the session's view of the stations:
      two contexts that agree on the committed stations and on the group documents
      the session sees recompute the same snapshot. */
  lemma RecomputeIgnoresRosterAndSessionStations(a: Ctx, b: Ctx, gid: string, now: int)
    requires a.committed.stations == b.committed.stations
    requires a.inTx.groups.Keys == b.inTx.groups.Keys
    requires forall g :: g in a.inTx.groups ==> a.inTx.groups[g].(roster := []) == b.inTx.groups[g].(roster := [])
    ensures UpdateStationGroup(a, InSession, gid, now).result.Ok? <==> UpdateStationGroup(b, InSession, gid, now).result.Ok?
    ensures UpdateStationGroup(a, InSession, gid, now).result.Ok? ==>
      UpdateStationGroup(a, InSession, gid, now).result.value.current ==
      UpdateStationGroup(b, InSession, gid, now).result.value.current
  {
  }

  /** The two writes `addStation` (with `add`) and `deleteStation` (without) issue before
      the recompute: the station's pointer set or cleared without the session, then the
      roster change with the caller's session. */
  function RosterWrite(ctx: Ctx, s: Session, gid: string, sid: string, add: bool): (r: Ctx)
    ensures var ref := if add then Some(gid) else None;
            r.committed.stations == SetGroupRef(ctx.committed.stations, sid, ref) &&
            View(r, s).stations == SetGroupRef(View(ctx, s).stations, sid, ref) &&
            View(r, s).stationHistory == View(ctx, s).stationHistory &&
            View(r, s).groupHistory == View(ctx, s).groupHistory &&
            r.committed.stationHistory == ctx.committed.stationHistory &&
            r.committed.groupHistory == ctx.committed.groupHistory &&
            View(r, s).groups.Keys == View(ctx, s).groups.Keys &&
            (gid in View(ctx, s).groups ==> View(r, s).groups == View(ctx, s).groups[gid :=
              View(ctx, s).groups[gid].(roster := if add then AddToSet(View(ctx, s).groups[gid].roster, sid)
                                                  else Pull(View(ctx, s).groups[gid].roster, sid))]) &&
            (s.InSession? ==> r.committed.groups == ctx.committed.groups)
    ensures ValidCtx(ctx) ==> ValidCtx(r)
  {
    var ref := if add then Some(gid) else None;
    var pointed := Perform(ctx, NoSession, if add then SetStationGroup(sid, gid) else UnsetStationGroup(sid));
    assert pointed.committed == ctx.committed.(stations := SetGroupRef(ctx.committed.stations, sid, ref));
    assert pointed.inTx == ctx.inTx.(stations := SetGroupRef(ctx.inTx.stations, sid, ref));
    var r := Perform(pointed, s, if add then AddToRoster(gid, sid) else PullFromRoster(gid, sid));
    assert View(r, s) == WithRosterChange(View(pointed, s), gid, sid, add);
    assert r.committed == if s.InSession? then pointed.committed
                          else WithRosterChange(pointed.committed, gid, sid, add);
    r
  }

  /** `addStation(gid, sid)`: sets the station's pointer without the session (NotFound
      on a missing station), adds the id to the roster with `$addToSet` (a missing group
      is ignored here), then recomputes the group. */
  function AddStation(ctx: Ctx, s: Session, gid: string, sid: string, now: int): (r: Step<Group>)
    ensures FindStation(ctx.committed.stations, sid).None? ==> r.result == Err(NotFound)
    ensures FindStation(ctx.committed.stations, sid).Some? ==>
      r.ctx.committed.stations == SetGroupRef(ctx.committed.stations, sid, Some(gid))
    ensures r.result.Ok? ==>
      FindStation(ctx.committed.stations, sid).Some? && gid in View(ctx, s).groups &&
      r.result.value.roster == AddToSet(View(ctx, s).groups[gid].roster, sid) &&
      FindStation(r.ctx.committed.stations, sid).value.groupRef == Some(gid)
    ensures FindStation(ctx.committed.stations, sid).Some? ==>
      View(r.ctx, s).stations == SetGroupRef(View(ctx, s).stations, sid, Some(gid))
    ensures View(r.ctx, s).stationHistory == View(ctx, s).stationHistory
    ensures View(r.ctx, s).groupHistory == View(ctx, s).groupHistory
    ensures s.InSession? ==> r.ctx.committed.groups == ctx.committed.groups
    ensures r.ctx.committed.stationHistory == ctx.committed.stationHistory
    ensures r.ctx.committed.groupHistory == ctx.committed.groupHistory
    ensures ValidCtx(ctx) ==> ValidCtx(r.ctx)
  {
    var pointed := StationManager.AddStationGroupId(ctx, NoSession, sid, gid);
    if pointed.result.Err? then Step(Err(pointed.result.error), pointed.ctx)
    else
      var added := RosterWrite(ctx, s, gid, sid, true);
      var r := UpdateStationGroup(added, s, gid, now);
      assert r.ctx.committed.stations == added.committed.stations;
      r
  }

  /** A recompute after a write that replaced only the group `gid` leaves that group,
      as the recompute returns it, as the only change. */
  lemma RecomputeStoresGroup(before: Ctx, after: Ctx, s: Session, gid: string, now: int, x: Group)
    requires gid in View(before, s).groups
    requires View(after, s).groups == View(before, s).groups[gid := x]
    requires UpdateStationGroup(after, s, gid, now).result.Ok?
    ensures var r := UpdateStationGroup(after, s, gid, now);
            View(r.ctx, s).groups == View(before, s).groups[gid := r.result.value]
  {
    var r := UpdateStationGroup(after, s, gid, now);
    var g := View(before, s).groups;
    OverwriteTwice(g, gid, x, r.result.value);
  }

  lemma OverwriteTwice(g: map<string, Group>, k: string, a: Group, b: Group)
    ensures g[k := a][k := b] == g[k := b]
  {
  }

  /** On success `addStation` has changed exactly the group `gid` among the groups its
      session sees, and the group it returns is that group as stored. */
  lemma AddStationStoresGroup(ctx: Ctx, s: Session, gid: string, sid: string, now: int)
    requires AddStation(ctx, s, gid, sid, now).result.Ok?
    ensures var r := AddStation(ctx, s, gid, sid, now);
            View(r.ctx, s).groups == View(ctx, s).groups[gid := r.result.value]
  {
    var pointed := StationManager.AddStationGroupId(ctx, NoSession, sid, gid);
    assert pointed.result.Ok?;
    var added := RosterWrite(ctx, s, gid, sid, true);
    var r := UpdateStationGroup(added, s, gid, now);
    assert AddStation(ctx, s, gid, sid, now) == r;
    var g := View(ctx, s).groups;
    RecomputeStoresGroup(ctx, added, s, gid, now, g[gid].(roster := AddToSet(g[gid].roster, sid)));
  }

  /** On success `deleteStation` has changed exactly the group `gid` among the groups its
      session sees, and the group it returns is that group as stored. */
  lemma DeleteStationStoresGroup(ctx: Ctx, s: Session, gid: string, sid: string, now: int)
    requires DeleteStation(ctx, s, gid, sid, now).result.Ok?
    ensures var r := DeleteStation(ctx, s, gid, sid, now);
            View(r.ctx, s).groups == View(ctx, s).groups[gid := r.result.value]
  {
    var pointed := StationManager.DeleteStationGroupId(ctx, NoSession, sid);
    assert pointed.result.Ok?;
    var pulled := RosterWrite(ctx, s, gid, sid, false);
    var r := UpdateStationGroup(pulled, s, gid, now);
    assert DeleteStation(ctx, s, gid, sid, now) == r;
    var g := View(ctx, s).groups;
    RecomputeStoresGroup(ctx, pulled, s, gid, now, g[gid].(roster := Pull(g[gid].roster, sid)));
  }

  /** Adding a station that is already on the roster leaves the roster as it was. */
  lemma AddStationIsSetAdd(ctx: Ctx, s: Session, gid: string, sid: string, now: int)
    requires AddStation(ctx, s, gid, sid, now).result.Ok?
    ensures var g := AddStation(ctx, s, gid, sid, now).result.value;
            sid in g.roster &&
            (sid in View(ctx, s).groups[gid].roster ==> g.roster == View(ctx, s).groups[gid].roster) &&
            (forall x :: x in g.roster <==> x in View(ctx, s).groups[gid].roster || x == sid)
  {
  }

  /** `deleteStation(gid, sid)`: clears the station's pointer without the session
      (NotFound on a missing station), removes every occurrence of the id from the
      roster with `$pull`, then recomputes the group. */
  function DeleteStation(ctx: Ctx, s: Session, gid: string, sid: string, now: int): (r: Step<Group>)
    ensures FindStation(ctx.committed.stations, sid).None? ==> r.result == Err(NotFound)
    ensures FindStation(ctx.committed.stations, sid).Some? ==>
      r.ctx.committed.stations == SetGroupRef(ctx.committed.stations, sid, None)
    ensures r.result.Ok? ==>
      FindStation(ctx.committed.stations, sid).Some? && gid in View(ctx, s).groups &&
      r.result.value.roster == Pull(View(ctx, s).groups[gid].roster, sid) &&
      sid !in r.result.value.roster &&
      FindStation(r.ctx.committed.stations, sid).value.groupRef.None?
    ensures FindStation(ctx.committed.stations, sid).Some? ==>
      View(r.ctx, s).stations == SetGroupRef(View(ctx, s).stations, sid, None)
    ensures View(r.ctx, s).stationHistory == View(ctx, s).stationHistory
    ensures View(r.ctx, s).groupHistory == View(ctx, s).groupHistory
    ensures s.InSession? ==> r.ctx.committed.groups == ctx.committed.groups
    ensures r.ctx.committed.stationHistory == ctx.committed.stationHistory
    ensures r.ctx.committed.groupHistory == ctx.committed.groupHistory
    ensures ValidCtx(ctx) ==> ValidCtx(r.ctx)
  {
    var cleared := StationManager.DeleteStationGroupId(ctx, NoSession, sid);
    if cleared.result.Err? then Step(Err(cleared.result.error), cleared.ctx)
    else
      var pulled := RosterWrite(ctx, s, gid, sid, false);
      var r := UpdateStationGroup(pulled, s, gid, now);
      assert r.ctx.committed.stations == pulled.committed.stations;
      r
  }

  /** Removing the only station whose pointer is the group fails with BadRequest: the
      recompute then has no members, and the mean of nothing is 0. */
  lemma RemovingLastMemberFails(ctx: Ctx, s: Session, gid: string, sid: string, now: int)
    requires Valid(ctx.committed)
    requires FindStation(ctx.committed.stations, sid).Some?
    requires forall i :: 0 <= i < |ctx.committed.stations| && ctx.committed.stations[i].groupRef == Some(gid) ==>
               ctx.committed.stations[i].id == sid
    ensures DeleteStation(ctx, s, gid, sid, now).result == Err(BadRequest)
  {
    var pulled := RosterWrite(ctx, s, gid, sid, false);
    DeleteStationRecomputes(ctx, s, gid, sid, now);
    ClearingLastPointerLeavesNone(ctx.committed.stations, gid, sid);
    RecomputeWithoutMembersFails(pulled, s, gid, now);
  }

  /** A recompute of a group no committed station points to fails with BadRequest. */
  lemma RecomputeWithoutMembersFails(ctx: Ctx, s: Session, gid: string, now: int)
    requires forall st :: st in ctx.committed.stations ==> st.groupRef != Some(gid)
    ensures UpdateStationGroup(ctx, s, gid, now).result == Err(BadRequest)
  {
    Seqs.EmptyWithoutElements(Members(ctx, gid));
    Seqs.EmptyWithoutElements(MeanCalculator.KeptTemperatures([]));
  }

  /** For an existing station, `deleteStation` is the recompute after the two writes. */
  lemma DeleteStationRecomputes(ctx: Ctx, s: Session, gid: string, sid: string, now: int)
    requires FindStation(ctx.committed.stations, sid).Some?
    ensures DeleteStation(ctx, s, gid, sid, now) == UpdateStationGroup(RosterWrite(ctx, s, gid, sid, false), s, gid, now)
  {
  }

  /** Once the only station pointing to `gid` has its pointer cleared, none points to it. */
  lemma ClearingLastPointerLeavesNone(ss: seq<Station>, gid: string, sid: string)
    requires UniqueIds(ss)
    requires forall i :: 0 <= i < |ss| && ss[i].groupRef == Some(gid) ==> ss[i].id == sid
    ensures forall st :: st in SetGroupRef(ss, sid, None) ==> st.groupRef != Some(gid)
  {
    var after := SetGroupRef(ss, sid, None);
    forall st | st in after
      ensures st.groupRef != Some(gid)
    {
      var k :| 0 <= k < |after| && after[k] == st;
      assert UniqueIds(after);
      FindUnique(after, k);
      if st.id != sid {
        FindUnique(ss, k);
      }
    }
  }

  /** `delete`: `deleteOne` on the group, NotFound when nothing was deleted. */
  function Delete(ctx: Ctx, s: Session, gid: string): (r: Step<DeleteResult>)
    ensures r.result.Ok? <==> gid in View(ctx, s).groups
    ensures r.result.Err? ==> r.result.error == NotFound && View(r.ctx, s) == View(ctx, s)
    ensures r.result.Ok? ==> r.result.value.deletedCount == 1
    ensures gid !in View(r.ctx, s).groups
    ensures View(r.ctx, s).groups == View(ctx, s).groups - {gid}
    ensures View(r.ctx, s).stations == View(ctx, s).stations
    ensures View(r.ctx, s).stationHistory == View(ctx, s).stationHistory
    ensures View(r.ctx, s).groupHistory == View(ctx, s).groupHistory
    ensures s.InSession? ==> r.ctx.committed == ctx.committed
    ensures ValidCtx(ctx) ==> ValidCtx(r.ctx)
  {
    var found := gid in View(ctx, s).groups;
    var after := Perform(ctx, s, DeleteGroupDoc(gid));
    if found then Step(Ok(DeleteResult(1)), after) else Step(Err(NotFound), after)
  }

  /** The body of a create request: only the location is kept. */
  datatype GroupDto = GroupDto(location: Option<Location>)

  /** `create`: a new group dated `now`, with the given location, an empty roster and
      no snapshot, under the fresh id `newId`. An id already in use is a duplicate-key
      error. No session is passed. */
  function Create(db: Store, newId: string, dto: GroupDto, now: int): (r: Done<Group>)
    ensures r.result.Err? <==> newId in db.groups
    ensures r.result.Err? ==> r.result.error == DuplicateKey && r.db == db
    ensures r.result.Ok? ==>
      r.result.value.createdDate == Some(now) && r.result.value.location == dto.location &&
      r.result.value.roster == [] && r.result.value.current.None? &&
      r.db.groups == db.groups[newId := r.result.value]
    ensures r.db.stations == db.stations
    ensures r.db.stationHistory == db.stationHistory && r.db.groupHistory == db.groupHistory
  {
    if newId in db.groups then Done(Err(DuplicateKey), db)
    else
      var g := Group(Some(now), dto.location, [], None, []);
      Done(Ok(g), Apply(db, InsertGroup(newId, g)))
  }

  /** `findById` followed by the response mapper: the mapper reads the location of the
      document it is given, so a missing group, or one without a location, throws. */
  function FindById(db: Store, gid: string): (r: Result<Group>)
    ensures r.Ok? <==> gid in db.groups && db.groups[gid].location.Some?
    ensures r.Err? ==> r.error == TypeError
    ensures r.Ok? ==> r.value == db.groups[gid]
  {
    if gid !in db.groups then Err(TypeError)
    else if db.groups[gid].location.None? then Err(TypeError)
    else Ok(db.groups[gid])
  }
}

=== FILE: group_orchestrator.dfy ===
/** The station-group orchestrator: deleting a group with everything that refers to
    it, and moving a station into or out of a group, each in one transaction. */
module GroupOrchestrator {
  import opened Outcomes
  import opened Documents
  import opened Transactions
  import MeasurementStores
  import StationManager
  import GroupManager

  /** Every station of the roster exists in the store. */
  predicate AllExist(ss: seq<Station>, ids: seq<string>) {
    forall i :: 0 <= i < |ids| ==> FindStation(ss, ids[i]).Some?
  }

  /** A station looked up, with its pointer cleared. */
  function Cleared(found: Option<Station>): Option<Station> {
    match found
    case None => None
    case Some(st) => Some(st.(groupRef := None))
  }

  /** The loop of `deleteGroupWithDependencies`: clears the pointer of each station of
      the roster in turn, with the session; the first missing station aborts the loop.
      On success the result is the number of stations cleared. */
  function DetachAll(ctx: Ctx, ids: seq<string>): (r: Step<nat>)
    decreases |ids|
    ensures r.ctx.committed == ctx.committed
    ensures r.result.Err? ==> r.result.error == NotFound
    ensures r.result.Ok? ==> r.result.value == |ids|
    ensures r.ctx.inTx == ctx.inTx.(stations := r.ctx.inTx.stations)
    ensures ValidCtx(ctx) ==> ValidCtx(r.ctx)
  {
    if |ids| == 0 then Step(Ok(0), ctx)
    else
      var first := StationManager.DeleteStationGroupId(ctx, InSession, ids[0]);
      if first.result.Err? then Step(Err(NotFound), first.ctx)
      else
        var rest := DetachAll(first.ctx, ids[1..]);
        if rest.result.Err? then rest else Step(Ok(rest.result.value + 1), rest.ctx)
  }

  /** The loop keeps every station in place under its id. */
  lemma {:induction false} DetachAllKeepsIds(ctx: Ctx, ids: seq<string>)
    decreases |ids|
    ensures var r := DetachAll(ctx, ids);
            |r.ctx.inTx.stations| == |ctx.inTx.stations| &&
            forall i :: 0 <= i < |ctx.inTx.stations| ==> r.ctx.inTx.stations[i].id == ctx.inTx.stations[i].id
  {
    if |ids| > 0 {
      var first := StationManager.DeleteStationGroupId(ctx, InSession, ids[0]);
      if first.result.Ok? {
        DetachAllKeepsIds(first.ctx, ids[1..]);
      }
    }
  }

  /** The loop succeeds exactly when every station of the roster exists. */
  lemma {:induction false} DetachAllSucceedsIff(ctx: Ctx, ids: seq<string>)
    decreases |ids|
    ensures DetachAll(ctx, ids).result.Ok? <==> AllExist(ctx.inTx.stations, ids)
  {
    if |ids| > 0 {
      var first := StationManager.DeleteStationGroupId(ctx, InSession, ids[0]);
      if first.result.Ok? {
        DetachAllSucceedsIff(first.ctx, ids[1..]);
        SameStationsExist(ctx.inTx.stations, first.ctx.inTx.stations, ids[1..]);
      }
      AllExistCons(ctx.inTx.stations, ids);
    }
  }

  lemma AllExistCons(ss: seq<Station>, ids: seq<string>)
    requires |ids| > 0
    ensures AllExist(ss, ids) <==> FindStation(ss, ids[0]).Some? && AllExist(ss, ids[1..])
  {
    if FindStation(ss, ids[0]).Some? && AllExist(ss, ids[1..]) {
      forall i | 0 <= i < |ids|
        ensures FindStation(ss, ids[i]).Some?
      {
        if i > 0 {
          assert ids[i] == ids[1..][i - 1];
        }
      }
    }
  }

  /** What the loop does to the stations: on success every station of the roster has its
      pointer cleared, and in any case a station off the roster is untouched. */
  lemma {:induction false} DetachAllClears(ctx: Ctx, ids: seq<string>)
    decreases |ids|
    ensures var r := DetachAll(ctx, ids);
            (r.result.Ok? ==> forall i :: 0 <= i < |ids| ==>
               FindStation(r.ctx.inTx.stations, ids[i]) == Cleared(FindStation(ctx.inTx.stations, ids[i]))) &&
            (forall other :: other !in ids ==>
               FindStation(r.ctx.inTx.stations, other) == FindStation(ctx.inTx.stations, other))
  {
    if |ids| > 0 {
      var first := StationManager.DeleteStationGroupId(ctx, InSession, ids[0]);
      if first.result.Ok? {
        DetachAllClears(first.ctx, ids[1..]);
        var rest := DetachAll(first.ctx, ids[1..]);
        assert forall other :: other !in ids ==> other != ids[0] && other !in ids[1..];
        if rest.result.Ok? {
          DetachedTail(ctx.inTx.stations, first.ctx.inTx.stations, rest.ctx.inTx.stations, ids);
        }
      }
    }
  }

  /** Clearing one pointer keeps every station's existence. */
  lemma SameStationsExist(ss: seq<Station>, ts: seq<Station>, ids: seq<string>)
    requires |ss| == |ts| && forall i :: 0 <= i < |ss| ==> ss[i].id == ts[i].id
    ensures AllExist(ss, ids) <==> AllExist(ts, ids)
  {
    IndexOfSameIdsEverywhere(ss, ts);
  }

  /** The first station of the roster, once cleared, stays cleared through the rest of
      the loop, whether or not it appears again. */
  lemma DetachedTail(before: seq<Station>, mid: seq<Station>, after: seq<Station>, ids: seq<string>)
    requires |ids| > 0
    requires FindStation(before, ids[0]).Some?
    requires mid == SetGroupRef(before, ids[0], None)
    requires forall i :: 0 <= i < |ids[1..]| ==>
      FindStation(after, ids[1..][i]) == Cleared(FindStation(mid, ids[1..][i]))
    requires forall other :: other !in ids[1..] ==> FindStation(after, other) == FindStation(mid, other)
    ensures forall i :: 0 <= i < |ids| ==>
      FindStation(after, ids[i]) == Cleared(FindStation(before, ids[i]))
  {
    forall i | 0 <= i < |ids|
      ensures FindStation(after, ids[i]) == Cleared(FindStation(before, ids[i]))
    {
      if i > 0 {
        assert ids[i] == ids[1..][i - 1];
        if ids[i] != ids[0] {
          assert FindStation(mid, ids[i]) == FindStation(before, ids[i]);
        }
      } else if ids[0] in ids[1..] {
        var k :| 0 <= k < |ids[1..]| && ids[1..][k] == ids[0];
        assert FindStation(after, ids[1..][k]) == Cleared(FindStation(mid, ids[1..][k]));
      }
    }
  }

  /** `deleteGroupWithDependencies`. The group is read without the session through the
      response mapper, which throws on a missing group or one without a location. Then
      every station of the roster has its pointer cleared, the group measurement
      collection's delete keyed on `stationId` runs, and the group document is deleted,
      all with the session. */
  function DeleteGroupWithDependencies(db: Store, gid: string, mode: MeasurementStores.StrictQuery)
    : (r: Done<DeleteResult>)
    ensures r.result.Err? ==> r.db == db
    ensures (gid !in db.groups || db.groups[gid].location.None?) ==> r.result == Err(TypeError)
    ensures r.result.Ok? <==>
      gid in db.groups && db.groups[gid].location.Some? && AllExist(db.stations, db.groups[gid].roster)
    ensures r.result.Err? && gid in db.groups && db.groups[gid].location.Some? ==> r.result.error == NotFound
    ensures r.result.Ok? ==>
      r.result.value.deletedCount == 1 &&
      r.db.groups == db.groups - {gid} &&
      r.db.groupHistory == MeasurementStores.DeleteGroupRecordsByStationKey(db.groupHistory, mode) &&
      r.db.stationHistory == db.stationHistory
    ensures r.result.Ok? ==> forall i :: 0 <= i < |db.groups[gid].roster| ==>
      FindStation(r.db.stations, db.groups[gid].roster[i]).Some? &&
      FindStation(r.db.stations, db.groups[gid].roster[i]) == Cleared(FindStation(db.stations, db.groups[gid].roster[i]))
    ensures r.result.Ok? ==> forall other :: other !in db.groups[gid].roster ==>
      FindStation(r.db.stations, other) == FindStation(db.stations, other)
    ensures Valid(db) ==> Valid(r.db)
  {
    var ctx := Begin(db);
    match GroupManager.FindById(View(ctx, NoSession), gid)
    case Err(e) => Finish(Step(Err(e), ctx))
    case Ok(g) =>
      var detached := DetachAll(ctx, g.roster);
      DetachAllSucceedsIff(ctx, g.roster);
      DetachAllClears(ctx, g.roster);
      if detached.result.Err? then Finish(Step(Err(detached.result.error), detached.ctx))
      else PurgeAndDelete(detached.ctx, gid, mode)
  }

  /** The last two writes of `deleteGroupWithDependencies` and the commit: the group
      measurement collection's delete, then the group document's, with the session. */
  function PurgeAndDelete(ctx: Ctx, gid: string, mode: MeasurementStores.StrictQuery): (r: Done<DeleteResult>)
    ensures r.result.Ok? <==> gid in ctx.inTx.groups
    ensures r.result.Err? ==> r.result.error == NotFound && r.db == ctx.committed
    ensures r.result.Ok? ==>
      r.result.value.deletedCount == 1 &&
      r.db == ctx.inTx.(groups := ctx.inTx.groups - {gid},
                        groupHistory := MeasurementStores.DeleteGroupRecordsByStationKey(ctx.inTx.groupHistory, mode))
    ensures ValidCtx(ctx) ==> Valid(r.db)
  {
    var purged := Perform(ctx, InSession, DeleteGroupRecords(mode));
    Finish(GroupManager.Delete(purged, InSession, gid))
  }

  /** A station that points at the group without being on its roster keeps its pointer:
      after the delete it points at a group that no longer exists. */
  lemma UnlistedMemberKeepsDanglingPointer(db: Store, gid: string, mode: MeasurementStores.StrictQuery, st: Station)
    requires DeleteGroupWithDependencies(db, gid, mode).result.Ok?
    requires FindStation(db.stations, st.id) == Some(st) && st.groupRef == Some(gid)
    requires st.id !in db.groups[gid].roster
    ensures var after := DeleteGroupWithDependencies(db, gid, mode).db;
            gid !in after.groups && FindStation(after.stations, st.id).value.groupRef == Some(gid)
  {
  }

  /** Deleting a group twice: the second call fails and changes nothing. */
  lemma SecondGroupDeleteFails(db: Store, gid: string, mode: MeasurementStores.StrictQuery)
    requires DeleteGroupWithDependencies(db, gid, mode).result.Ok?
    ensures var once := DeleteGroupWithDependencies(db, gid, mode);
            var twice := DeleteGroupWithDependencies(once.db, gid, mode);
            twice.result == Err(TypeError) && twice.db == once.db
  {
  }

  /** `addStationToGroupTransactional`: sets the station's pointer with the session, then
      runs the group service's `addStation` with the session. That call sets the pointer
      once more without the session, so the pointer survives an abort. */
  function AddStationToGroupTransactional(db: Store, gid: string, sid: string, now: int): (r: Done<Group>)
    ensures FindStation(db.stations, sid).None? ==> r.result == Err(NotFound) && r.db == db
    ensures FindStation(db.stations, sid).Some? && r.result.Err? ==>
      r.db == db.(stations := SetGroupRef(db.stations, sid, Some(gid)))
    ensures r.result.Ok? ==>
      gid in db.groups && r.result.value.roster == AddToSet(db.groups[gid].roster, sid) &&
      r.db.stations == SetGroupRef(db.stations, sid, Some(gid)) &&
      FindStation(r.db.stations, sid).value.groupRef == Some(gid)
    ensures r.db.stationHistory == db.stationHistory && r.db.groupHistory == db.groupHistory
    ensures Valid(db) ==> Valid(r.db)
  {
    var ctx := Begin(db);
    var pointed := StationManager.AddStationGroupId(ctx, InSession, sid, gid);
    if pointed.result.Err? then Finish(Step(Err(pointed.result.error), pointed.ctx))
    else
      var added := GroupManager.AddStation(pointed.ctx, InSession, gid, sid, now);
      SetGroupRefTwice(db.stations, sid, Some(gid), Some(gid));
      Finish(added)
  }

  /** On success the committed groups differ from the old ones in the group `gid` only,
      which is stored as returned. */
  lemma AddStationCommitsGroup(db: Store, gid: string, sid: string, now: int)
    requires AddStationToGroupTransactional(db, gid, sid, now).result.Ok?
    ensures var r := AddStationToGroupTransactional(db, gid, sid, now);
            r.db.groups == db.groups[gid := r.result.value]
  {
    var pointed := StationManager.AddStationGroupId(Begin(db), InSession, sid, gid);
    GroupManager.AddStationStoresGroup(pointed.ctx, InSession, gid, sid, now);
  }

  /** Adding a station to a group that does not exist fails, but the station is left
      pointing at it. */
  lemma MissingGroupLeavesDanglingPointer(db: Store, gid: string, sid: string, now: int)
    requires gid !in db.groups
    requires FindStation(db.stations, sid).Some?
    ensures var r := AddStationToGroupTransactional(db, gid, sid, now);
            r.result.Err? && FindStation(r.db.stations, sid).value.groupRef == Some(gid)
  {
  }

  /** `deleteStationFromGroupTransactional`: the group service's `deleteStation` with the session. */
  function DeleteStationFromGroupTransactional(db: Store, gid: string, sid: string, now: int): (r: Done<Group>)
    ensures FindStation(db.stations, sid).None? ==> r.result == Err(NotFound) && r.db == db
    ensures FindStation(db.stations, sid).Some? && r.result.Err? ==>
      r.db == db.(stations := SetGroupRef(db.stations, sid, None))
    ensures r.result.Ok? ==>
      gid in db.groups && r.result.value.roster == Pull(db.groups[gid].roster, sid) &&
      sid !in r.result.value.roster &&
      r.db.stations == SetGroupRef(db.stations, sid, None) &&
      FindStation(r.db.stations, sid).value.groupRef.None?
    ensures r.db.stationHistory == db.stationHistory && r.db.groupHistory == db.groupHistory
    ensures Valid(db) ==> Valid(r.db)
  {
    var removed := GroupManager.DeleteStation(Begin(db), InSession, gid, sid, now);
    SetGroupRefTwice(db.stations, sid, None, None);
    Finish(removed)
  }

  /** Removing the last station that points at the group fails with BadRequest; the
      pointer stays cleared while the roster still lists the station. */
  lemma RemovingLastMemberLeavesStaleRoster(db: Store, gid: string, sid: string, now: int)
    requires Valid(db)
    requires gid in db.groups && sid in db.groups[gid].roster
    requires FindStation(db.stations, sid).Some?
    requires forall i :: 0 <= i < |db.stations| && db.stations[i].groupRef == Some(gid) ==> db.stations[i].id == sid
    ensures var r := DeleteStationFromGroupTransactional(db, gid, sid, now);
            r.result == Err(BadRequest) &&
            FindStation(r.db.stations, sid).value.groupRef.None? &&
            sid in r.db.groups[gid].roster
  {
    GroupManager.RemovingLastMemberFails(Begin(db), InSession, gid, sid, now);
  }
}

=== FILE: js_values.dfy ===
/** The values a `number`-typed field takes at run time in JavaScript, and the
    operators the services apply to them. Rounding is not modelled: a number is a `real`. */
module JsValues {

  /** `undefined`, `null`, `NaN`, or an ordinary number. */
  datatype JsNum = Undefined | Null | NaN | Num(v: real)

  /** JavaScript truthiness of a number-or-nullish value: only a non-zero number is truthy. */
  predicate Truthy(x: JsNum) {
    x.Num? && x.v != 0.0
  }

  predicate Nullish(x: JsNum) {
    x.Undefined? || x.Null?
  }

  /** `x || d`. */
  function Or(x: JsNum, d: JsNum): JsNum {
    if Truthy(x) then x else d
  }

  /** `x ?? d`. */
  function Coalesce(x: JsNum, d: JsNum): (r: JsNum)
    ensures !Nullish(x) ==> r == x
    ensures Nullish(x) ==> r == d
  {
    if Nullish(x) then d else x
  }

  /** The numeric conversion applied by `+` and by relational operators:
      `undefined` becomes NaN, `null` becomes 0. */
  function ToNumber(x: JsNum): (r: JsNum)
    ensures r.NaN? || r.Num?
  {
    match x
    case Undefined => NaN
    case Null => Num(0.0)
    case NaN => NaN
    case Num(v) => Num(v)
  }

  /** `x <= 0`: false whenever either side converts to NaN. */
  predicate AtMostZero(x: JsNum) {
    var n := ToNumber(x);
    n.Num? && n.v <= 0.0
  }

  /** `x > 0` together with the explicit `!== null && !== undefined` tests. */
  predicate PresentAndPositive(x: JsNum) {
    x.Num? && x.v > 0.0
  }

  /** The guard `(x || 0) <= 0` used to reject temperatures. */
  predicate RejectedByPositivityGuard(x: JsNum) {
    AtMostZero(Or(x, Num(0.0)))
  }

  /** The guard rejects exactly the values that are not a number greater than zero:
      undefined, null, NaN, zero and negatives. */
  lemma PositivityGuardRejectsExactly(x: JsNum)
    ensures RejectedByPositivityGuard(x) <==> !PresentAndPositive(x)
  {
  }

  /** `x > 0`: false whenever either side converts to NaN. */
  predicate AboveZero(x: JsNum) {
    var n := ToNumber(x);
    n.Num? && n.v > 0.0
  }

  /** The check `(x || 0) > 0` used to accept temperatures. */
  predicate AcceptedByPositivityCheck(x: JsNum) {
    AboveZero(Or(x, Num(0.0)))
  }

  /** Accepting by `(x || 0) > 0` is the exact negation of rejecting by `(x || 0) <= 0`,
      because `x || 0` is never NaN. */
  lemma PositivityCheckIsGuardNegation(x: JsNum)
    ensures AcceptedByPositivityCheck(x) <==> !RejectedByPositivityGuard(x)
    ensures AcceptedByPositivityCheck(x) <==> PresentAndPositive(x)
  {
  }

  /** `a + b` where `a` is already a number (the accumulator of a reduce). */
  function Add(a: JsNum, b: JsNum): (r: JsNum)
    ensures r.NaN? <==> ToNumber(a).NaN? || ToNumber(b).NaN?
  {
    var x := ToNumber(a);
    var y := ToNumber(b);
    if x.NaN? || y.NaN? then NaN else Num(x.v + y.v)
  }

  /** `a / n` for a positive integer `n`. */
  function DivideBy(a: JsNum, n: nat): (r: JsNum)
    requires n > 0
    ensures a.Num? ==> r == Num(a.v / n as real)
    ensures !a.Num? ==> r.NaN?
  {
    if a.Num? then Num(a.v / n as real) else NaN
  }
}

=== FILE: legacy_groups.dfy ===
/** The station-group service that the module registers. A group here keeps its own
    list of measurements; readings are pushed onto it, and the reads report the last
    one of the current UTC day. No call raises NotFound, and updates return the
    group as it was before the update. */
module LegacyGroups {
  import opened Outcomes
  import opened JsValues
  import opened Documents
  import opened Transactions
  import MeasurementMapper
  import StationManager
  import GroupManager
  import DayWindow

  /** The group `gid` as a `findById` before any update sees it. */
  function Before(db: Store, gid: string): (r: Option<Group>)
    ensures r.Some? <==> gid in db.groups
    ensures r.Some? ==> r.value == db.groups[gid]
  {
    if gid in db.groups then Some(db.groups[gid]) else None
  }

  /** `addMeasurement`: a temperature passing `(t || 0) > 0` is pushed, dated `now`,
      with the air pressure defaulting to 0 when nullish, onto the group's measurements.
      Either way the call succeeds and returns the group as it was before. */
  function AddMeasurement(db: Store, gid: string, dto: MeasurementMapper.MeasurementDto, now: int)
    : (r: Done<Option<Group>>)
    ensures r.result == Ok(Before(db, gid))
    ensures !PresentAndPositive(dto.temperature) ==> r.db == db
    ensures gid !in db.groups ==> r.db == db
    ensures PresentAndPositive(dto.temperature) && gid in db.groups ==>
      r.db == db.(groups := db.groups[gid := db.groups[gid].(measurements :=
        db.groups[gid].measurements + [StationManager.AcceptedMeasurement(dto, now)])])
  {
    PositivityCheckIsGuardNegation(dto.temperature);
    if AcceptedByPositivityCheck(dto.temperature) then
      Done(Ok(Before(db, gid)), Apply(db, PushGroupMeasurement(gid, StationManager.AcceptedMeasurement(dto, now))))
    else Done(Ok(Before(db, gid)), db)
  }

  /** An accepted reading is not in the group the call returns, though it is in the
      group stored. */
  lemma ReturnedGroupIsStale(db: Store, gid: string, dto: MeasurementMapper.MeasurementDto, now: int)
    requires gid in db.groups && PresentAndPositive(dto.temperature)
    ensures var r := AddMeasurement(db, gid, dto, now);
            r.result.value.Some? && r.result.value.value != r.db.groups[gid] &&
            r.db.groups[gid].measurements == r.result.value.value.measurements +
              [StationManager.AcceptedMeasurement(dto, now)]
  {
    var r := AddMeasurement(db, gid, dto, now);
    assert |r.db.groups[gid].measurements| == |r.result.value.value.measurements| + 1;
  }

  /** `addStation` as written: `$push` of the station id onto `stationIds`, a path the
      group schema does not declare (its roster is `stations`). The roster is left as it
      was, and the call returns the group as it was before. */
  function AddStation(db: Store, gid: string, sid: string): (r: Done<Option<Group>>)
    ensures r.result == Ok(Before(db, gid))
    ensures r.db == db
  {
    Done(Ok(Before(db, gid)), db)
  }

  /** `addStation` as evidently intended: `$push` of the station id onto the roster,
      duplicates included; the call returns the group as it was before. */
  function AddStationIntended(db: Store, gid: string, sid: string): (r: Done<Option<Group>>)
    ensures r.result == Ok(Before(db, gid))
    ensures gid !in db.groups ==> r.db == db
    ensures gid in db.groups ==>
      r.db == db.(groups := db.groups[gid := db.groups[gid].(roster := db.groups[gid].roster + [sid])])
  {
    Done(Ok(Before(db, gid)), Apply(db, PushToRoster(gid, sid)))
  }

  /** A station added to a group by `addStation` as written is never listed on its roster,
      where the intended push lists it, and so does the transactional service's set-add. */
  lemma AddStationNeverLists(db: Store, gid: string, sid: string)
    requires gid in db.groups && sid !in db.groups[gid].roster
    ensures sid !in AddStation(db, gid, sid).db.groups[gid].roster
    ensures sid in AddStationIntended(db, gid, sid).db.groups[gid].roster
    ensures sid in AddToSet(db.groups[gid].roster, sid)
  {
  }

  /** The intended push lists a station that was listed already once more, where the
      transactional service's set-add leaves the roster unchanged. */
  lemma PushKeepsDuplicates(db: Store, gid: string, sid: string)
    requires gid in db.groups && sid in db.groups[gid].roster
    ensures var pushed := AddStationIntended(db, gid, sid).db.groups[gid].roster;
            multiset(pushed)[sid] == multiset(db.groups[gid].roster)[sid] + 1 &&
            AddToSet(db.groups[gid].roster, sid) == db.groups[gid].roster
  {
  }

  /** `delete`: `deleteOne`; the count says whether a group was deleted, and no error is raised. */
  function Delete(db: Store, gid: string): (r: Done<DeleteResult>)
    ensures r.result.Ok?
    ensures r.result.value.deletedCount == if gid in db.groups then 1 else 0
    ensures r.db.groups == db.groups - {gid}
    ensures r.db.stations == db.stations
    ensures r.db.stationHistory == db.stationHistory && r.db.groupHistory == db.groupHistory
  {
    var count := if gid in db.groups then 1 else 0;
    Done(Ok(DeleteResult(count)), Apply(db, DeleteGroupDoc(gid)))
  }

  /** A second delete of the same group deletes nothing and changes nothing. */
  lemma SecondDeleteCountsZero(db: Store, gid: string)
    ensures var once := Delete(db, gid).db;
            Delete(once, gid).result.value.deletedCount == 0 && Delete(once, gid).db == once
  {
  }

  /** `slice(-1)[0]`: the last element, or undefined for an empty array. */
  function Last<T>(xs: seq<T>): (r: Option<T>)
    ensures r.None? <==> |xs| == 0
    ensures r.Some? ==> r.value == xs[|xs| - 1]
  {
    if |xs| == 0 then None else Some(xs[|xs| - 1])
  }

  /** The reported current measurement: today's measurements filtered out of the group's
      list, the last of them, copied by `buildMeasurement`. */
  function CurrentOfDay(ms: seq<Measurement>, now: int): MeasurementMapper.MeasurementDto {
    MeasurementMapper.BuildMeasurement(Last(MeasurementsOfDay(ms, now)))
  }

  /** The position of the latest-stored measurement that falls in the day of `now`. */
  function LastOfDayIndex(ms: seq<Measurement>, now: int): (r: Option<nat>)
    ensures r.Some? ==> r.value < |ms| && DayWindow.InDayWindow(ms[r.value].date, now)
    ensures r.Some? ==> forall j :: r.value < j < |ms| ==> !DayWindow.InDayWindow(ms[j].date, now)
    ensures r.None? <==> forall j :: 0 <= j < |ms| ==> !DayWindow.InDayWindow(ms[j].date, now)
  {
    if |ms| == 0 then None
    else if DayWindow.InDayWindow(ms[|ms| - 1].date, now) then Some(|ms| - 1)
    else LastOfDayIndex(ms[..|ms| - 1], now)
  }

  /** The latest-stored measurement of the day of `now`, as a DTO; `{}` when there is none. */
  function LatestOfDay(ms: seq<Measurement>, now: int): MeasurementMapper.MeasurementDto {
    match LastOfDayIndex(ms, now)
    case None => MeasurementMapper.EmptyDto
    case Some(i) => MeasurementMapper.MapStationMeasurementDto(ms[i])
  }

  /** Filtering to the day and taking the last reports the latest-stored measurement of
      the day, and `{}` exactly when the group has no measurement that day. */
  lemma {:induction false} CurrentIsLatestOfDay(ms: seq<Measurement>, now: int)
    decreases |ms|
    ensures CurrentOfDay(ms, now) == LatestOfDay(ms, now)
  {
    if |ms| == 0 {
      MeasurementsOfDayEmpty(now);
    } else {
      var init := ms[..|ms| - 1];
      var x := ms[|ms| - 1];
      assert ms == init + [x];
      MeasurementsOfDayAppend(init, x, now);
      if !DayWindow.InDayWindow(x.date, now) {
        CurrentIsLatestOfDay(init, now);
        var k := LastOfDayIndex(init, now);
        if k.Some? {
          assert ms[k.value] == init[k.value];
        }
      }
    }
  }

  /** A group as the reads report it. */
  datatype GroupView = GroupView(createdDate: Option<int>, location: Location, current: MeasurementMapper.MeasurementDto)

  /** `findById`: the group with its latest measurement of the day of `now`. A missing
      group, or one without a location, makes the response construction throw. */
  function FindById(db: Store, gid: string, now: int): (r: Result<GroupView>)
    ensures r.Ok? <==> gid in db.groups && db.groups[gid].location.Some?
    ensures r.Err? ==> r.error == TypeError
    ensures r.Ok? ==>
      r.value.createdDate == db.groups[gid].createdDate &&
      r.value.location == db.groups[gid].location.value &&
      r.value.current == LatestOfDay(db.groups[gid].measurements, now)
  {
    if gid !in db.groups || db.groups[gid].location.None? then Err(TypeError)
    else
      var g := db.groups[gid];
      CurrentIsLatestOfDay(g.measurements, now);
      Ok(GroupView(g.createdDate, g.location.value, CurrentOfDay(g.measurements, now)))
  }

  /** The views of the groups listed in `order`, one after the other: every view, or the
      error of the first group whose view cannot be built. */
  function ViewsInOrder(db: Store, order: seq<string>, now: int): (r: Result<seq<GroupView>>)
    ensures r.Ok? <==> forall i :: 0 <= i < |order| ==> FindById(db, order[i], now).Ok?
    ensures r.Err? ==> r.error == TypeError
    ensures r.Ok? ==> |r.value| == |order|
    ensures r.Ok? ==> forall i :: 0 <= i < |order| ==> Ok(r.value[i]) == FindById(db, order[i], now)
  {
    if |order| == 0 then Ok([])
    else
      match FindById(db, order[0], now)
      case Err(e) => Err(e)
      case Ok(v) =>
        match ViewsInOrder(db, order[1..], now)
        case Err(e) => Err(e)
        case Ok(vs) =>
          assert forall i :: 1 <= i < |order| ==> order[i] == order[1..][i - 1];
          Ok([v] + vs)
  }

  /** `findAll`: the aggregate has no `$match` stage, so it visits every stored group once,
      in the collection's natural order `order`. The call succeeds iff every stored group
      has a location, and then lists one view per stored group. */
  function FindAll(db: Store, order: seq<string>, now: int): (r: Result<seq<GroupView>>)
    requires forall g :: g in order <==> g in db.groups
    requires forall i, j :: 0 <= i < j < |order| ==> order[i] != order[j]
    ensures r.Ok? <==> forall g :: g in db.groups ==> db.groups[g].location.Some?
    ensures r.Err? ==> r.error == TypeError
    ensures r.Ok? ==> |r.value| == |order| == |db.groups|
    ensures r.Ok? ==> forall i :: 0 <= i < |order| ==> Ok(r.value[i]) == FindById(db, order[i], now)
  {
    ListedOnceCoversKeys(order, db.groups.Keys);
    ViewsInOrder(db, order, now)
  }

  /** A sequence listing each element of a set exactly once is as long as the set. */
  lemma {:induction false} ListedOnceCoversKeys(order: seq<string>, keys: set<string>)
    requires forall g :: g in order <==> g in keys
    requires forall i, j :: 0 <= i < j < |order| ==> order[i] != order[j]
    ensures |order| == |keys|
    decreases |order|
  {
    if |order| == 0 {
      assert forall g :: g in keys ==> g in order;
      assert keys == {};
    } else {
      var rest := order[1..];
      forall g ensures g in rest <==> g in keys - {order[0]} {
        if g in rest {
          var k :| 0 <= k < |rest| && rest[k] == g;
          assert order[k + 1] == g;
        }
        if g in keys - {order[0]} {
          assert g in order;
          var k :| 0 <= k < |order| && order[k] == g;
          assert rest[k - 1] == g;
        }
      }
      ListedOnceCoversKeys(rest, keys - {order[0]});
    }
  }

  /** How the object-document mapper treats a function given as the last argument of
      `Model.create`: versions before 7 take it as the completion callback, with no
      document to insert; version 7 and later refuse callbacks. */
  datatype CreateCallbackApi = CallbackAccepted | CallbackRejected

  /** `create` as written: it hands the class `StationGroupDto`, not the prepared DTO, to
      `Model.create`, which takes a lone function for a callback. No document is stored,
      whatever the DTO holds: the call yields no group, or is refused. */
  function CreateAsWritten(db: Store, dto: GroupManager.GroupDto, now: int, api: CreateCallbackApi)
    : (r: Done<Option<Group>>)
    ensures r.db == db
    ensures r.result == Ok(None) <==> api.CallbackAccepted?
    ensures r.result == Err(InvalidArgument) <==> api.CallbackRejected?
  {
    match api
    case CallbackAccepted => Done(Ok(None), db)
    case CallbackRejected => Done(Err(InvalidArgument), db)
  }

  /** `create` as written stores no group, so the id the intended `create` would have
      stored the group under stays unreadable, whatever location the request carried;
      the intended `create` makes it readable. */
  lemma CreateAsWrittenStoresNothing(db: Store, newId: string, loc: Location, now: int, api: CreateCallbackApi)
    requires newId !in db.groups
    ensures var dto := GroupManager.GroupDto(Some(loc));
            var asWritten := CreateAsWritten(db, dto, now, api);
            asWritten.db.groups == db.groups &&
            FindById(asWritten.db, newId, now) == Err(TypeError) &&
            FindById(Create(db, newId, dto, now).db, newId, now).Ok?
  {
  }

  /** `create` as evidently intended: the prepared DTO is stored, dated `now`, with an
      empty roster and no measurements, which is what the transactional service's
      `create` does. */
  function Create(db: Store, newId: string, dto: GroupManager.GroupDto, now: int): (r: Done<Group>)
    ensures r.result.Err? <==> newId in db.groups
    ensures r.result.Err? ==> r.result.error == DuplicateKey && r.db == db
    ensures r.result.Ok? ==>
      r.result.value.createdDate == Some(now) && r.result.value.location == dto.location &&
      r.result.value.roster == [] && r.result.value.measurements == [] &&
      r.db.groups == db.groups[newId := r.result.value]
    ensures r.db.stations == db.stations
  {
    GroupManager.Create(db, newId, dto, now)
  }

  /** A group created with a location reads back with that location, its creation date
      and no current measurement. */
  lemma CreatedGroupReadsBack(db: Store, newId: string, loc: Location, now: int)
    requires newId !in db.groups
    ensures var created := Create(db, newId, GroupManager.GroupDto(Some(loc)), now);
            FindById(created.db, newId, now) == Ok(GroupView(Some(now), loc, MeasurementMapper.EmptyDto))
  {
    var created := Create(db, newId, GroupManager.GroupDto(Some(loc)), now);
    assert LastOfDayIndex(created.db.groups[newId].measurements, now).None?;
  }
}

=== FILE: legacy_stations.dfy ===
/** The station service that the module registers, and the station measurement service
    it injects (which the module itself does not provide). They issue the same writes as
    the transactional services, but never with a session and never inside a transaction,
    and a new reading does not recompute any group. */
module LegacyStations {
  import opened Outcomes
  import opened JsValues
  import opened Documents
  import opened Transactions
  import MeasurementMapper
  import MeasurementStores
  import StationManager
  import StationOrchestrator
  import DayWindow

  /** `addMeasurement`: refuses an invalid temperature before any write, otherwise
      appends the reading to the history and then sets it as the snapshot; a missing
      station is reported after the append, which stays. The updated station is then
      mapped to its response, which throws, after both writes, for a station without a
      location; the writes stay. */
  function AddMeasurement(db: Store, id: string, dto: MeasurementMapper.MeasurementDto, now: int)
    : (r: Done<StationManager.StationResponse>)
    ensures r.result == Err(BadRequest) <==> RejectedByPositivityGuard(dto.temperature)
    ensures RejectedByPositivityGuard(dto.temperature) ==> r.db == db
    ensures !RejectedByPositivityGuard(dto.temperature) ==>
      r.db.stationHistory == db.stationHistory + [Record(id, StationManager.AcceptedMeasurement(dto, now))]
    ensures !RejectedByPositivityGuard(dto.temperature) && FindStation(db.stations, id).None? ==>
      r.result == Err(NotFound) && r.db.stations == db.stations
    ensures !RejectedByPositivityGuard(dto.temperature) && FindStation(db.stations, id).Some? ==>
      var updated := FindStation(db.stations, id).value.(current := Some(StationManager.AcceptedMeasurement(dto, now)));
      FindStation(r.db.stations, id) == Some(updated) && r.result == StationManager.MapStationResponseDto(updated)
    ensures r.result == Err(TypeError) <==>
      !RejectedByPositivityGuard(dto.temperature) && FindStation(db.stations, id).Some? &&
      FindStation(db.stations, id).value.location.None?
    ensures forall other :: other != id ==> FindStation(r.db.stations, other) == FindStation(db.stations, other)
    ensures r.db.groups == db.groups && r.db.groupHistory == db.groupHistory
    ensures Valid(db) ==> Valid(r.db)
  {
    var out := StationManager.AddMeasurement(Begin(db), NoSession, id, dto, now);
    Done(out.result, out.ctx.committed)
  }

  /** A reading for a missing station fails with NotFound and still leaves its record in
      the history, under an id no station has. */
  lemma MissingStationLeavesOrphanRecord(db: Store, id: string, dto: MeasurementMapper.MeasurementDto, now: int)
    requires !RejectedByPositivityGuard(dto.temperature)
    requires FindStation(db.stations, id).None?
    ensures var r := AddMeasurement(db, id, dto, now);
            r.result == Err(NotFound) &&
            RecordsOf(r.db.stationHistory, id) == RecordsOf(db.stationHistory, id) +
              [Record(id, StationManager.AcceptedMeasurement(dto, now))] &&
            FindStation(r.db.stations, id).None?
  {
    var rec := Record(id, StationManager.AcceptedMeasurement(dto, now));
    MeasurementStores.RecordsOfAppendOne(db.stationHistory, rec, id);
  }

  /** For an accepted reading of an existing station, the registered service and the
      transactional one give the same result. They leave the same store exactly when the
      station has a location; without one, the response throws after the writes, which
      stay here and are rolled back by the transaction. Only the transactional one goes
      on to recompute the station's group. */
  lemma AgreesWithTransactionalOnExistingStation(db: Store, id: string, dto: MeasurementMapper.MeasurementDto, now: int)
    requires !RejectedByPositivityGuard(dto.temperature)
    requires FindStation(db.stations, id).Some?
    ensures var legacy := AddMeasurement(db, id, dto, now);
            var tx := StationOrchestrator.AddMeasurementAndPropagate(db, id, dto, now);
            legacy.result == tx.done.result &&
            (legacy.db == tx.done.db <==> FindStation(db.stations, id).value.location.Some?)
  {
    var plain := StationManager.AddMeasurement(Begin(db), NoSession, id, dto, now);
    var inSession := StationManager.AddMeasurement(Begin(db), InSession, id, dto, now);
    assert plain.ctx.committed == StationManager.RecordAndSnapshot(db, id, dto, now);
    assert inSession.ctx.inTx == StationManager.RecordAndSnapshot(db, id, dto, now);
    if FindStation(db.stations, id).value.location.None? {
      assert |plain.ctx.committed.stationHistory| == |db.stationHistory| + 1;
    }
  }

  /** `delete`: `deleteOne` on the station, NotFound when nothing was deleted. The
      station's history is not touched. */
  function Delete(db: Store, id: string): (r: Done<DeleteResult>)
    ensures r.result.Ok? <==> FindStation(db.stations, id).Some?
    ensures r.result.Err? ==> r.result.error == NotFound && r.db == db
    ensures Valid(db) ==> FindStation(r.db.stations, id).None?
    ensures forall other :: other != id ==> FindStation(r.db.stations, other) == FindStation(db.stations, other)
    ensures r.db.stationHistory == db.stationHistory
    ensures r.db.groups == db.groups && r.db.groupHistory == db.groupHistory
    ensures Valid(db) ==> Valid(r.db)
  {
    var st := StationManager.Delete(Begin(db), NoSession, id);
    Done(st.result, st.ctx.committed)
  }

  /** Deleting a station that has history keeps that history here, while the
      transactional delete removes it. */
  lemma DeleteKeepsHistory(db: Store, id: string)
    requires FindStation(db.stations, id).Some?
    requires RecordsOf(db.stationHistory, id) != []
    ensures RecordsOf(Delete(db, id).db.stationHistory, id) != []
    ensures RecordsOf(StationOrchestrator.DeleteStationWithMeasurements(db, id).db.stationHistory, id) == []
  {
  }

  /** `addStationGroupId`: `$set` of the pointer, NotFound on a missing station. */
  function AddStationGroupId(db: Store, id: string, gid: string): (r: Done<Station>)
    ensures r.result.Ok? <==> FindStation(db.stations, id).Some?
    ensures r.result.Err? ==> r.result.error == NotFound && r.db == db
    ensures r.result.Ok? ==>
      r.result.value == FindStation(db.stations, id).value.(groupRef := Some(gid)) &&
      FindStation(r.db.stations, id) == Some(r.result.value)
    ensures r.db == db.(stations := SetGroupRef(db.stations, id, Some(gid)))
  {
    var st := StationManager.AddStationGroupId(Begin(db), NoSession, id, gid);
    Done(st.result, st.ctx.committed)
  }

  /** `deleteStationGroupId`: `$unset` of the pointer, NotFound on a missing station. */
  function DeleteStationGroupId(db: Store, id: string): (r: Done<Station>)
    ensures r.result.Ok? <==> FindStation(db.stations, id).Some?
    ensures r.result.Err? ==> r.result.error == NotFound && r.db == db
    ensures r.result.Ok? ==>
      r.result.value == FindStation(db.stations, id).value.(groupRef := None) &&
      FindStation(r.db.stations, id) == Some(r.result.value)
    ensures r.db == db.(stations := SetGroupRef(db.stations, id, None))
  {
    var st := StationManager.DeleteStationGroupId(Begin(db), NoSession, id);
    Done(st.result, st.ctx.committed)
  }

  /** Setting a pointer and then clearing it gives back the store, for a station that
      had no pointer. */
  lemma ClearUndoesSet(db: Store, id: string, gid: string)
    requires Valid(db)
    requires FindStation(db.stations, id).Some? && FindStation(db.stations, id).value.groupRef.None?
    ensures DeleteStationGroupId(AddStationGroupId(db, id, gid).db, id).db == db
  {
    StationManager.DeleteStationGroupIdUndoesAdd(Begin(db), NoSession, id, gid);
    var once := StationManager.AddStationGroupId(Begin(db), NoSession, id, gid);
    assert once.ctx == Begin(AddStationGroupId(db, id, gid).db);
  }

  /** `findAllNotGrouped`: the responses of the stations whose pointer is absent, null or
      the empty string, or TypeError when one of them has no location. */
  function FindAllNotGrouped(db: Store): (r: Result<seq<StationManager.StationResponse>>)
    ensures r.Ok? <==> forall st :: st in db.stations && StationManager.NotGrouped(st) ==> st.location.Some?
    ensures r.Err? ==> r.error == TypeError
    ensures r.Ok? ==> |r.value| == |StationManager.NotGroupedStations(db.stations)|
    ensures r.Ok? ==> forall i :: 0 <= i < |r.value| ==>
      Ok(r.value[i]) == StationManager.MapStationResponseDto(StationManager.NotGroupedStations(db.stations)[i])
  {
    StationManager.FindAllNotGrouped(db.stations)
  }

  /** `findByIdWithCurrentDayMeasurements` as written: the query cuts the embedded
      measurements to today's UTC day window, and the response mapping drops them. */
  function FindByIdWithCurrentDayMeasurements(db: Store, id: string, now: int): (r: Result<StationManager.StationResponse>)
    ensures r == Err(NotFound) <==> FindStation(db.stations, id).None?
    ensures r == Err(TypeError) <==> FindStation(db.stations, id).Some? && FindStation(db.stations, id).value.location.None?
    ensures FindStation(db.stations, id).Some? ==> r == StationManager.MapStationResponseDto(FindStation(db.stations, id).value)
  {
    StationManager.FindByIdWithCurrentDayMeasurements(db.stations, id, now)
  }

  /** `findByIdWithCurrentDayMeasurements` as evidently intended: the station with its
      embedded measurements cut to today's UTC day window, and otherwise as stored. */
  function FindByIdWithCurrentDayMeasurementsIntended(db: Store, id: string, now: int): (r: Result<Station>)
    ensures r == Err(NotFound) <==> FindStation(db.stations, id).None?
    ensures r == Err(TypeError) <==> FindStation(db.stations, id).Some? && FindStation(db.stations, id).value.location.None?
    ensures r.Ok? ==> r.value.(measurements := []) == FindStation(db.stations, id).value.(measurements := [])
    ensures r.Ok? ==> forall m :: m in r.value.measurements <==>
      m in FindStation(db.stations, id).value.measurements &&
      DayWindow.StartOfUtcDay(m.date) == DayWindow.StartOfUtcDay(now)
    ensures r.Ok? ==> StationManager.MapStationResponseDto(r.value) == FindByIdWithCurrentDayMeasurements(db, id, now)
  {
    var r := StationManager.FindByIdWithCurrentDayMeasurementsIntended(db.stations, id, now);
    if r.Ok? then
      SameDayMeasurements(db.stations, id, now);
      r
    else r
  }

  lemma SameDayMeasurements(ss: seq<Station>, id: string, now: int)
    requires FindStation(ss, id).Some? && FindStation(ss, id).value.location.Some?
    ensures forall m :: m in StationManager.FindByIdWithCurrentDayMeasurementsIntended(ss, id, now).value.measurements <==>
      m in FindStation(ss, id).value.measurements &&
      DayWindow.StartOfUtcDay(m.date) == DayWindow.StartOfUtcDay(now)
  {
    forall m {
      StationManager.CurrentDayIsSameUtcDay(ss, id, now, m);
    }
  }

  /** The registered measurement service's `create` followed by `findMeasurementsByDay`:
      a reading stored without its own date is found by that day's query for its
      station, after everything the query returned before, and by no other station's
      query. */
  lemma CreateThenFindByDay(recs: seq<Record>, id: string, other: string,
                            dto: MeasurementMapper.MeasurementDto, now: int)
    requires dto.date.None?
    requires other != id
    ensures var after := MeasurementStores.CreateRecord(recs, id, dto, now);
            MeasurementStores.FindMeasurementsByDay(after, id, now) ==
              MeasurementStores.FindMeasurementsByDay(recs, id, now) + [MeasurementMapper.ToMeasurement(dto, now)] &&
            MeasurementStores.FindMeasurementsByDay(after, other, now) ==
              MeasurementStores.FindMeasurementsByDay(recs, other, now)
  {
    MeasurementStores.FindAfterCreate(recs, id, dto, now, now, other);
    DayWindow.WindowsCover(now);
  }

  /** The registered measurement service's day query: a measurement is returned for two
      reference instants of consecutive days never twice, and every measurement of the
      station is returned for the reference instant that is its own date. */
  lemma DayQueriesPartitionTime(recs: seq<Record>, id: string, reference: int, m: Measurement)
    requires Record(id, m) in recs
    ensures m in MeasurementStores.FindMeasurementsByDay(recs, id, m.date)
    ensures !(m in MeasurementStores.FindMeasurementsByDay(recs, id, reference) &&
              m in MeasurementStores.FindMeasurementsByDay(recs, id, reference + DayWindow.DayMillis))
  {
    DayWindow.WindowsCover(m.date);
    DayWindow.ConsecutiveWindowsAreAdjacent(reference);
  }
}

=== FILE: mean_calculator.dfy ===
/** The mean calculator: an arithmetic mean that is 0 on an empty list, and the
    three station means built on it (temperature filtered to positive values,
    humidity and air pressure unfiltered). Each station mean reads every
    station's `currentMeasurement`, so a station without one makes it fail. */
module MeanCalculator {
  import opened JsValues
  import opened Outcomes
  import opened Documents
  import Seqs

  /** The sum of a list of reals: the reference the JavaScript reduction is compared with. */
  function Sum(xs: seq<real>): real {
    if |xs| == 0 then 0.0 else xs[0] + Sum(xs[1..])
  }

  /** The mathematical mean, 0 for the empty list. */
  function Mean(xs: seq<real>): real {
    if |xs| == 0 then 0.0 else Sum(xs) / |xs| as real
  }

  lemma {:induction false} SumAppend(xs: seq<real>, ys: seq<real>)
    ensures Sum(xs + ys) == Sum(xs) + Sum(ys)
    decreases |xs|
  {
    if |xs| == 0 {
      assert xs + ys == ys;
    } else {
      assert (xs + ys)[1..] == xs[1..] + ys;
      SumAppend(xs[1..], ys);
    }
  }

  /** Taking one summand out of the middle. */
  lemma {:induction false} SumRemoveAt(ys: seq<real>, k: nat)
    requires k < |ys|
    ensures Sum(ys) == ys[k] + Sum(ys[..k] + ys[k + 1..])
  {
    var before, x, after := ys[..k], ys[k], ys[k + 1..];
    assert ys == (before + [x]) + after;
    SumAppend(before + [x], after);
    SumAppend(before, [x]);
    SumAppend(before, after);
    assert [x][1..] == [];
    assert Sum([x]) == x;
  }

  /** The sum does not depend on the order of the summands. */
  lemma {:induction false} SumPermutation(xs: seq<real>, ys: seq<real>)
    requires multiset(xs) == multiset(ys)
    ensures Sum(xs) == Sum(ys)
    decreases |xs|
  {
    if |xs| == 0 {
      assert |ys| == |multiset(ys)| == 0;
    } else {
      var k := Seqs.PositionOf(ys, xs[0]);
      var rest := ys[..k] + ys[k + 1..];
      Seqs.PermutationRests(xs, ys, k);
      SumPermutation(xs[1..], rest);
      SumRemoveAt(ys, k);
    }
  }

  /** The mean does not depend on the order of the samples. */
  lemma MeanPermutation(xs: seq<real>, ys: seq<real>)
    requires multiset(xs) == multiset(ys)
    ensures Mean(xs) == Mean(ys)
  {
    SumPermutation(xs, ys);
    assert |xs| == |multiset(xs)| == |multiset(ys)| == |ys|;
  }

  /** Bounds on every sample bound the sum. */
  lemma {:induction false} SumBounds(xs: seq<real>, lo: real, hi: real)
    requires forall i :: 0 <= i < |xs| ==> lo <= xs[i] <= hi
    ensures |xs| as real * lo <= Sum(xs) <= |xs| as real * hi
    decreases |xs|
  {
    if |xs| > 0 {
      SumBounds(xs[1..], lo, hi);
    }
  }

  function Min(xs: seq<real>): (r: real)
    requires |xs| > 0
    ensures r in xs
    ensures forall i :: 0 <= i < |xs| ==> r <= xs[i]
  {
    if |xs| == 1 then xs[0]
    else
      var m := Min(xs[1..]);
      if xs[0] <= m then xs[0] else m
  }

  function Max(xs: seq<real>): (r: real)
    requires |xs| > 0
    ensures r in xs
    ensures forall i :: 0 <= i < |xs| ==> xs[i] <= r
  {
    if |xs| == 1 then xs[0]
    else
      var m := Max(xs[1..]);
      if xs[0] >= m then xs[0] else m
  }

  /** The mean of a non-empty list lies between its smallest and its largest sample. */
  lemma MeanBetweenMinAndMax(xs: seq<real>)
    requires |xs| > 0
    ensures Min(xs) <= Mean(xs) <= Max(xs)
  {
    MeanBounds(xs, Min(xs), Max(xs));
  }

  /** Bounds on every sample bound the mean. */
  lemma MeanBounds(xs: seq<real>, lo: real, hi: real)
    requires |xs| > 0
    requires forall i :: 0 <= i < |xs| ==> lo <= xs[i] <= hi
    ensures lo <= Mean(xs) <= hi
  {
    SumBounds(xs, lo, hi);
    QuotientBounds(Sum(xs), |xs| as real, lo, hi);
  }

  lemma QuotientBounds(s: real, n: real, lo: real, hi: real)
    requires n > 0.0 && n * lo <= s <= n * hi
    ensures lo <= s / n <= hi
  {
    var q := s / n;
    assert q * n == s;
    assert n * (q - lo) >= 0.0;
    assert n * (hi - q) >= 0.0;
  }

  /** The number a list entry contributes to the running sum: null counts as 0,
      undefined and NaN poison it (see `Poisoned`). */
  function NumericValue(x: JsNum): real {
    var n := ToNumber(x);
    if n.Num? then n.v else 0.0
  }

  function Numeric(xs: seq<JsNum>): (r: seq<real>)
    ensures |r| == |xs|
  {
    Seqs.Map(xs, NumericValue)
  }

  /** Some entry converts to NaN, which makes the whole sum NaN. */
  predicate Poisoned(xs: seq<JsNum>) {
    exists i :: 0 <= i < |xs| && ToNumber(xs[i]).NaN?
  }

  /** `numbers.reduce((accumulator, value) => accumulator + value, 0)`: a left fold. */
  function ReduceSum(xs: seq<JsNum>): JsNum {
    if |xs| == 0 then Num(0.0) else Add(ReduceSum(xs[..|xs| - 1]), xs[|xs| - 1])
  }

  /** The fold is NaN exactly when some entry is undefined or NaN, and otherwise the
      sum of the entries with null read as 0. */
  lemma {:induction false} ReduceSumClosedForm(xs: seq<JsNum>)
    ensures ReduceSum(xs) == if Poisoned(xs) then NaN else Num(Sum(Numeric(xs)))
    decreases |xs|
  {
    if |xs| > 0 {
      var init := xs[..|xs| - 1];
      var last := xs[|xs| - 1];
      assert ReduceSum(xs) == Add(ReduceSum(init), last);
      ReduceSumClosedForm(init);
      assert xs == init + [last];
      Seqs.MapConcat(init, [last], NumericValue);
      assert Numeric([last]) == [NumericValue(last)];
      SumAppend(Numeric(init), [NumericValue(last)]);
      assert Sum([NumericValue(last)]) == NumericValue(last);
      assert Poisoned(xs) <==> Poisoned(init) || ToNumber(last).NaN? by {
        if Poisoned(xs) {
          var i :| 0 <= i < |xs| && ToNumber(xs[i]).NaN?;
          if i < |xs| - 1 {
            assert init[i] == xs[i];
          }
        }
      }
    }
  }

  /** `calculateArithmeticMean`: 0 for an empty list, otherwise the reduce-sum over the length. */
  function ArithmeticMean(xs: seq<JsNum>): (r: JsNum)
    ensures |xs| == 0 ==> r == Num(0.0)
    ensures |xs| > 0 && Poisoned(xs) ==> r == NaN
    ensures !Poisoned(xs) ==> r == Num(Mean(Numeric(xs)))
    ensures |xs| > 0 && !Poisoned(xs) ==> r == Num(Sum(Numeric(xs)) / |xs| as real)
  {
    ReduceSumClosedForm(xs);
    if |xs| == 0 then Num(0.0) else DivideBy(ReduceSum(xs), |xs|)
  }

  /** A list of plain numbers is never poisoned, and its numeric reading is itself. */
  lemma PlainNumbers(xs: seq<JsNum>)
    requires forall i :: 0 <= i < |xs| ==> xs[i].Num?
    ensures !Poisoned(xs)
    ensures forall i :: 0 <= i < |xs| ==> Numeric(xs)[i] == xs[i].v
  {
  }

  lemma ArithmeticMeanPermutation(xs: seq<JsNum>, ys: seq<JsNum>)
    requires multiset(xs) == multiset(ys)
    ensures ArithmeticMean(xs) == ArithmeticMean(ys)
  {
    assert |xs| == |multiset(xs)| == |multiset(ys)| == |ys|;
    assert Poisoned(xs) <==> Poisoned(ys) by {
      if Poisoned(xs) {
        var i :| 0 <= i < |xs| && ToNumber(xs[i]).NaN?;
        assert xs[i] in multiset(ys);
      }
      if Poisoned(ys) {
        var i :| 0 <= i < |ys| && ToNumber(ys[i]).NaN?;
        assert ys[i] in multiset(xs);
      }
    }
    Seqs.MapPermutation(xs, ys, NumericValue);
    MeanPermutation(Numeric(xs), Numeric(ys));
  }

  // ---- the station means -------------------------------------------------

  /** Every station has a `currentMeasurement`; otherwise reading it throws. */
  predicate AllHaveSnapshot(stations: seq<Station>) {
    forall i :: 0 <= i < |stations| ==> stations[i].current.Some?
  }

  function TemperatureOf(st: Station): JsNum {
    if st.current.Some? then st.current.value.temperature else Undefined
  }

  function HumidityOf(st: Station): JsNum {
    if st.current.Some? then st.current.value.humidity else Undefined
  }

  function AirPressureOf(st: Station): JsNum {
    if st.current.Some? then st.current.value.airPressure else Undefined
  }

  /** The temperatures the temperature mean keeps, as JavaScript values. */
  function PositiveTemperatures(stations: seq<Station>): seq<JsNum> {
    Seqs.Filter(Seqs.Map(stations, TemperatureOf), PresentAndPositive)
  }

  lemma NumericOfPositives(kept: seq<JsNum>)
    requires forall i :: 0 <= i < |kept| ==> PresentAndPositive(kept[i])
    ensures forall x :: x in Numeric(kept) <==> Num(x) in kept
    ensures forall i :: 0 <= i < |kept| ==> Numeric(kept)[i] > 0.0
  {
    var r := Numeric(kept);
    forall x
      ensures x in r <==> Num(x) in kept
    {
      if x in r {
        var i :| 0 <= i < |r| && r[i] == x;
        assert kept[i] == Num(x);
      }
      if Num(x) in kept {
        var i :| 0 <= i < |kept| && kept[i] == Num(x);
        assert r[i] == x;
      }
    }
  }

  /** Reading plain numbers as reals keeps how often each value occurs. */
  lemma {:induction false} NumericCounts(xs: seq<JsNum>)
    requires forall i :: 0 <= i < |xs| ==> xs[i].Num?
    ensures forall x :: multiset(Numeric(xs))[x] == multiset(xs)[Num(x)]
  {
    if |xs| > 0 {
      NumericCounts(xs[1..]);
      assert xs == [xs[0]] + xs[1..];
      assert Numeric(xs) == [xs[0].v] + Numeric(xs[1..]);
    }
  }

  /** The temperatures the temperature mean keeps: those present and greater than zero,
      in station order. */
  function KeptTemperatures(stations: seq<Station>): (r: seq<real>)
    ensures forall x :: x in r <==> x > 0.0 && Num(x) in Seqs.Map(stations, TemperatureOf)
    ensures forall i :: 0 <= i < |r| ==> r[i] > 0.0
    ensures forall x :: multiset(r)[x] == (if x > 0.0 then multiset(Seqs.Map(stations, TemperatureOf))[Num(x)] else 0)
  {
    NumericOfPositives(PositiveTemperatures(stations));
    NumericCounts(PositiveTemperatures(stations));
    Seqs.FilterCounts(Seqs.Map(stations, TemperatureOf), PresentAndPositive);
    Numeric(PositiveTemperatures(stations))
  }

  /** `calculateStationsTemperatureMean`. */
  function StationsTemperatureMean(stations: seq<Station>): (r: Result<JsNum>)
    ensures r.Err? <==> !AllHaveSnapshot(stations)
    ensures r.Err? ==> r.error == TypeError
    ensures r.Ok? ==> r.value == Num(Mean(KeptTemperatures(stations)))
  {
    if !AllHaveSnapshot(stations) then Err(TypeError)
    else
      PlainNumbers(PositiveTemperatures(stations));
      Ok(ArithmeticMean(PositiveTemperatures(stations)))
  }

  /** `calculateStationsHumidityeMean`: every station's humidity, unfiltered, over the station count. */
  function StationsHumidityMean(stations: seq<Station>): (r: Result<JsNum>)
    ensures r.Err? <==> !AllHaveSnapshot(stations)
    ensures r.Err? ==> r.error == TypeError
    ensures r.Ok? && |stations| == 0 ==> r.value == Num(0.0)
    ensures r.Ok? && |stations| > 0 && Poisoned(Seqs.Map(stations, HumidityOf)) ==> r.value == NaN
    ensures r.Ok? && !Poisoned(Seqs.Map(stations, HumidityOf)) && |stations| > 0 ==>
      r.value == Num(Sum(Numeric(Seqs.Map(stations, HumidityOf))) / |stations| as real)
  {
    if !AllHaveSnapshot(stations) then Err(TypeError)
    else Ok(ArithmeticMean(Seqs.Map(stations, HumidityOf)))
  }

  /** `calculateStationsAirPressureMean`: every station's air pressure, unfiltered. */
  function StationsAirPressureMean(stations: seq<Station>): (r: Result<JsNum>)
    ensures r.Err? <==> !AllHaveSnapshot(stations)
    ensures r.Err? ==> r.error == TypeError
    ensures r.Ok? && |stations| == 0 ==> r.value == Num(0.0)
    ensures r.Ok? && |stations| > 0 && Poisoned(Seqs.Map(stations, AirPressureOf)) ==> r.value == NaN
    ensures r.Ok? && !Poisoned(Seqs.Map(stations, AirPressureOf)) && |stations| > 0 ==>
      r.value == Num(Sum(Numeric(Seqs.Map(stations, AirPressureOf))) / |stations| as real)
  {
    if !AllHaveSnapshot(stations) then Err(TypeError)
    else Ok(ArithmeticMean(Seqs.Map(stations, AirPressureOf)))
  }

  /** The temperature mean is 0 exactly when no station has a present, positive
      temperature; otherwise it is positive and between the smallest and largest of them. */
  lemma TemperatureMeanRange(stations: seq<Station>)
    requires AllHaveSnapshot(stations)
    ensures var t := StationsTemperatureMean(stations).value;
            var kept := KeptTemperatures(stations);
            t.Num? && (t.v == 0.0 <==> |kept| == 0) &&
            (|kept| > 0 ==> 0.0 < Min(kept) <= t.v <= Max(kept))
  {
    var kept := KeptTemperatures(stations);
    if |kept| > 0 {
      MeanBetweenMinAndMax(kept);
      assert Min(kept) in kept;
    }
  }

  function HumidityValue(st: Station): real {
    NumericValue(HumidityOf(st))
  }

  /** When every member reports a numeric humidity, the humidity mean is the plain mean of them. */
  lemma HumidityMeanOfPresentValues(stations: seq<Station>)
    requires AllHaveSnapshot(stations)
    requires forall i :: 0 <= i < |stations| ==> stations[i].current.value.humidity.Num?
    ensures StationsHumidityMean(stations) ==
      Ok(Num(Mean(Seqs.Map(stations, HumidityValue))))
  {
    var hs := Seqs.Map(stations, HumidityOf);
    PlainNumbers(hs);
    assert Numeric(hs) == Seqs.Map(stations, HumidityValue);
  }

  /** The three means do not depend on the order of the member stations. */
  lemma MeansArePermutationInvariant(a: seq<Station>, b: seq<Station>)
    requires multiset(a) == multiset(b)
    ensures StationsTemperatureMean(a) == StationsTemperatureMean(b)
    ensures StationsHumidityMean(a) == StationsHumidityMean(b)
    ensures StationsAirPressureMean(a) == StationsAirPressureMean(b)
  {
    assert AllHaveSnapshot(a) <==> AllHaveSnapshot(b) by {
      if !AllHaveSnapshot(a) {
        var i :| 0 <= i < |a| && a[i].current.None?;
        assert a[i] in multiset(b);
      }
      if !AllHaveSnapshot(b) {
        var i :| 0 <= i < |b| && b[i].current.None?;
        assert b[i] in multiset(a);
      }
    }
    if AllHaveSnapshot(a) {
      Seqs.MapPermutation(a, b, TemperatureOf);
      Seqs.FilterPermutation(Seqs.Map(a, TemperatureOf), Seqs.Map(b, TemperatureOf), PresentAndPositive);
      ArithmeticMeanPermutation(PositiveTemperatures(a), PositiveTemperatures(b));
      Seqs.MapPermutation(a, b, HumidityOf);
      ArithmeticMeanPermutation(Seqs.Map(a, HumidityOf), Seqs.Map(b, HumidityOf));
      Seqs.MapPermutation(a, b, AirPressureOf);
      ArithmeticMeanPermutation(Seqs.Map(a, AirPressureOf), Seqs.Map(b, AirPressureOf));
    }
  }
}

=== FILE: measurement_mapper.dfy ===
/** The measurement mapper: the group snapshot built from the member stations'
    snapshots, and the copies between stored measurements and the measurement DTO. */
module MeasurementMapper {
  import opened Outcomes
  import opened JsValues
  import opened Documents
  import MeanCalculator

  /** A measurement DTO. `date` is `None` when the key is absent; the other
      fields may be undefined. */
  datatype MeasurementDto = MeasurementDto(date: Option<int>, temperature: JsNum, humidity: JsNum,
                                           airPressure: JsNum)

  /** The object literal `{}`: every field absent. */
  const EmptyDto: MeasurementDto := MeasurementDto(None, Undefined, Undefined, Undefined)

  /** `buildGroupStationMeasurement`: the humidity, temperature and air-pressure
      means of the given stations, dated `now`. The air pressure falls back to 0
      only when its mean is nullish. A station without a snapshot makes a mean throw. */
  function BuildGroupStationMeasurement(stations: seq<Station>, now: int): (r: Result<Measurement>)
    ensures r.Err? <==> !MeanCalculator.AllHaveSnapshot(stations)
    ensures r.Err? ==> r.error == TypeError
    ensures r.Ok? ==> r.value.date == now
    ensures r.Ok? ==> r.value.temperature == Num(MeanCalculator.Mean(MeanCalculator.KeptTemperatures(stations)))
    ensures r.Ok? ==> Ok(r.value.humidity) == MeanCalculator.StationsHumidityMean(stations)
    ensures r.Ok? ==> Ok(r.value.airPressure) == MeanCalculator.StationsAirPressureMean(stations)
  {
    var humidity := MeanCalculator.StationsHumidityMean(stations);
    var temperature := MeanCalculator.StationsTemperatureMean(stations);
    var airPressure := MeanCalculator.StationsAirPressureMean(stations);
    if !MeanCalculator.AllHaveSnapshot(stations) then Err(TypeError)
    else Ok(Measurement(now, temperature.value, humidity.value, Coalesce(airPressure.value, Num(0.0))))
  }

  /** The group snapshot's temperature is rejected by the positivity guard exactly
      when no member reports a present, positive temperature; otherwise it lies
      between the smallest and the largest of those temperatures. */
  lemma GroupTemperatureGuard(stations: seq<Station>, now: int)
    requires MeanCalculator.AllHaveSnapshot(stations)
    ensures var r := BuildGroupStationMeasurement(stations, now);
            var kept := MeanCalculator.KeptTemperatures(stations);
            r.Ok? &&
            (RejectedByPositivityGuard(r.value.temperature) <==> |kept| == 0) &&
            (|kept| > 0 ==> MeanCalculator.Min(kept) <= r.value.temperature.v <= MeanCalculator.Max(kept))
  {
    var kept := MeanCalculator.KeptTemperatures(stations);
    var t := BuildGroupStationMeasurement(stations, now).value.temperature;
    MeanCalculator.TemperatureMeanRange(stations);
    assert t == MeanCalculator.StationsTemperatureMean(stations).value;
    PositivityGuardRejectsExactly(t);
  }

  /** A group of no stations builds a snapshot the positivity guard rejects. */
  lemma EmptyGroupIsRejected(now: int)
    ensures BuildGroupStationMeasurement([], now).Ok?
    ensures RejectedByPositivityGuard(BuildGroupStationMeasurement([], now).value.temperature)
  {
    GroupTemperatureGuard([], now);
  }

  /** `buildMeasurement`: a present measurement is copied field by field, an absent one gives `{}`. */
  function BuildMeasurement(m: Option<Measurement>): (r: MeasurementDto)
    ensures m.None? <==> r == EmptyDto
    ensures m.Some? ==> r.date == Some(m.value.date) && r.temperature == m.value.temperature &&
                        r.humidity == m.value.humidity && r.airPressure == m.value.airPressure
  {
    match m
    case None => EmptyDto
    case Some(x) => MapStationMeasurementDto(x)
  }

  /** `mapStationMeasurementDto`: the four fields of a stored measurement. */
  function MapStationMeasurementDto(m: Measurement): (r: MeasurementDto)
    ensures r.date.Some? && ToMeasurement(r, r.date.value) == m
  {
    MeasurementDto(Some(m.date), m.temperature, m.humidity, m.airPressure)
  }

  /** The body of a stored record created from `dto` at time `now`: the generated
      date is written first and the DTO's own fields are spread over it. */
  function ToMeasurement(dto: MeasurementDto, now: int): (r: Measurement)
    ensures dto.date.Some? ==> r.date == dto.date.value
    ensures dto.date.None? ==> r.date == now
    ensures r.temperature == dto.temperature && r.humidity == dto.humidity && r.airPressure == dto.airPressure
  {
    Measurement(dto.date.GetOr(now), dto.temperature, dto.humidity, dto.airPressure)
  }

  /** Storing a mapped measurement gives the measurement back, whatever the time of storing. */
  lemma StoreAfterMapRoundTrip(m: Measurement, now: int)
    ensures ToMeasurement(MapStationMeasurementDto(m), now) == m
  {
  }

  /** Mapping a stored measurement gives back the DTO it was stored from, when the DTO carried a date. */
  lemma MapAfterStoreRoundTrip(dto: MeasurementDto, now: int)
    requires dto.date.Some?
    ensures MapStationMeasurementDto(ToMeasurement(dto, now)) == dto
  {
  }

  /** Two stored measurements with the same DTO are the same measurement. */
  lemma MapIsInjective(a: Measurement, b: Measurement)
    requires MapStationMeasurementDto(a) == MapStationMeasurementDto(b)
    ensures a == b
  {
    StoreAfterMapRoundTrip(a, 0);
    StoreAfterMapRoundTrip(b, 0);
  }
}

=== FILE: measurement_stores.dfy ===
/** The two measurement collections: station records keyed by `stationId` and group
    records keyed by `stationGroupId`. Both are append-only logs of `Record`s;
    `create` appends one record, `deleteByStationId` removes by owner, and
    `findMeasurementsByDay` reads one owner's records in a UTC day window. */
module MeasurementStores {
  import opened Outcomes
  import opened Documents
  import Seqs
  import DayWindow
  import MeasurementMapper

  /** `create(owner, dto)`: one record tagged with `owner`, dated `now` unless the DTO carries a date. */
  function CreateRecord(recs: seq<Record>, owner: string, dto: MeasurementMapper.MeasurementDto, now: int): (r: seq<Record>)
    ensures |r| == |recs| + 1 && r[..|recs|] == recs
    ensures RecordsOf(r, owner) == RecordsOf(recs, owner) + [Record(owner, MeasurementMapper.ToMeasurement(dto, now))]
    ensures forall other :: other != owner ==> RecordsOf(r, other) == RecordsOf(recs, other)
  {
    var rec := Record(owner, MeasurementMapper.ToMeasurement(dto, now));
    RecordsOfAppend(recs, rec);
    recs + [rec]
  }

  lemma RecordsOfAppend(recs: seq<Record>, rec: Record)
    ensures forall o :: RecordsOf(recs + [rec], o) == RecordsOf(recs, o) + (if rec.owner == o then [rec] else [])
  {
    forall o {
      RecordsOfAppendOne(recs, rec, o);
    }
  }

  lemma RecordsOfAppendOne(recs: seq<Record>, rec: Record, o: string)
    ensures RecordsOf(recs + [rec], o) == RecordsOf(recs, o) + (if rec.owner == o then [rec] else [])
  {
    Seqs.FilterAppend(recs, [rec], (x: Record) => x.owner == o);
  }

  /** A record of `owner` whose date lies in the day window of `reference`. */
  predicate OfDay(rec: Record, owner: string, reference: int) {
    rec.owner == owner && DayWindow.InDayWindow(rec.m.date, reference)
  }

  function Body(rec: Record): Measurement {
    rec.m
  }

  /** `findMeasurementsByDay(owner, reference)`: the bodies of the owner's records dated
      from UTC midnight of `reference` (inclusive) to one day later (exclusive), in
      insertion order. */
  function FindMeasurementsByDay(recs: seq<Record>, owner: string, reference: int): (r: seq<Measurement>)
    ensures forall m :: m in r <==> Record(owner, m) in recs && DayWindow.InDayWindow(m.date, reference)
    ensures forall i :: 0 <= i < |r| ==> DayWindow.InDayWindow(r[i].date, reference)
  {
    var kept := Seqs.Filter(recs, (rec: Record) => OfDay(rec, owner, reference));
    var r := Seqs.Map(kept, Body);
    MembersOfDay(recs, kept, r, owner, reference);
    r
  }

  lemma MembersOfDay(recs: seq<Record>, kept: seq<Record>, r: seq<Measurement>, owner: string, reference: int)
    requires kept == Seqs.Filter(recs, (rec: Record) => OfDay(rec, owner, reference))
    requires r == Seqs.Map(kept, Body)
    ensures forall m :: m in r <==> Record(owner, m) in recs && DayWindow.InDayWindow(m.date, reference)
  {
    forall m
      ensures m in r <==> Record(owner, m) in recs && DayWindow.InDayWindow(m.date, reference)
    {
      if m in r {
        var i :| 0 <= i < |r| && r[i] == m;
        assert kept[i] in kept;
        assert kept[i] == Record(owner, m);
      }
      if Record(owner, m) in recs && DayWindow.InDayWindow(m.date, reference) {
        assert Record(owner, m) in kept;
        var i :| 0 <= i < |kept| && kept[i] == Record(owner, m);
        assert r[i] == m;
      }
    }
  }

  /** Appending one record extends an owner's day query by that record's body exactly
      when the record is the owner's and falls in the day. */
  lemma {:induction false} FindAfterAppend(recs: seq<Record>, rec: Record, owner: string, reference: int)
    ensures FindMeasurementsByDay(recs + [rec], owner, reference) ==
            FindMeasurementsByDay(recs, owner, reference) + (if OfDay(rec, owner, reference) then [rec.m] else [])
  {
    var keep := (rec: Record) => OfDay(rec, owner, reference);
    var front := Seqs.Filter(recs, keep);
    var tail := Seqs.Filter([rec], keep);
    Seqs.FilterAppend(recs, [rec], keep);
    Seqs.FilterOne(rec, keep);
    Seqs.MapConcat(front, tail, Body);
    assert Seqs.Map(tail, Body) == (if OfDay(rec, owner, reference) then [rec.m] else []);
  }

  /** After a `create`, the owner's query for a day returns what it returned before,
      followed by the new measurement when its date falls in that day; every other
      owner's query is unchanged. */
  lemma FindAfterCreate(recs: seq<Record>, owner: string, dto: MeasurementMapper.MeasurementDto,
                        now: int, reference: int, other: string)
    requires other != owner
    ensures var m := MeasurementMapper.ToMeasurement(dto, now);
            var after := CreateRecord(recs, owner, dto, now);
            FindMeasurementsByDay(after, owner, reference) ==
              FindMeasurementsByDay(recs, owner, reference) +
              (if DayWindow.InDayWindow(m.date, reference) then [m] else []) &&
            FindMeasurementsByDay(after, other, reference) == FindMeasurementsByDay(recs, other, reference)
  {
    var rec := Record(owner, MeasurementMapper.ToMeasurement(dto, now));
    assert CreateRecord(recs, owner, dto, now) == recs + [rec];
    FindAfterAppend(recs, rec, owner, reference);
    FindAfterAppend(recs, rec, other, reference);
  }

  /** A record created without a DTO date is found by the same day's query. */
  lemma CreatedTodayIsFoundToday(recs: seq<Record>, owner: string, dto: MeasurementMapper.MeasurementDto, now: int)
    requires dto.date.None?
    ensures MeasurementMapper.ToMeasurement(dto, now) in
            FindMeasurementsByDay(CreateRecord(recs, owner, dto, now), owner, now)
  {
    DayWindow.WindowsCover(now);
    assert CreateRecord(recs, owner, dto, now)[|recs|] == Record(owner, MeasurementMapper.ToMeasurement(dto, now));
  }

  /** `deleteByStationId` on the station collection: every record of the station goes and
      nothing else. A second call removes nothing. */
  lemma {:induction false} DeleteByStationIdIdempotent(recs: seq<Record>, owner: string)
    ensures DeleteRecordsOf(DeleteRecordsOf(recs, owner), owner) == DeleteRecordsOf(recs, owner)
  {
    var once := DeleteRecordsOf(recs, owner);
    Seqs.FilterAll(once, (rec: Record) => rec.owner != owner);
  }

  /** After `deleteByStationId`, the station's day queries all come back empty, and every
      other station's queries are unchanged. */
  lemma DeleteThenFindIsEmpty(recs: seq<Record>, owner: string, reference: int)
    ensures FindMeasurementsByDay(DeleteRecordsOf(recs, owner), owner, reference) == []
  {
    var after := DeleteRecordsOf(recs, owner);
    assert forall i :: 0 <= i < |after| ==> after[i] in after;
    Seqs.FilterNone(after, (x: Record) => OfDay(x, owner, reference));
  }

  lemma DeleteKeepsOtherQueries(recs: seq<Record>, owner: string, other: string, reference: int)
    requires other != owner
    ensures multiset(FindMeasurementsByDay(DeleteRecordsOf(recs, owner), other, reference)) ==
            multiset(FindMeasurementsByDay(recs, other, reference))
  {
    var keep := (rec: Record) => OfDay(rec, other, reference);
    DeleteKeepsOtherRecords(recs, owner, other, reference);
    Seqs.MapPermutation(Seqs.Filter(DeleteRecordsOf(recs, owner), keep), Seqs.Filter(recs, keep), Body);
  }

  lemma DeleteKeepsOtherRecords(recs: seq<Record>, owner: string, other: string, reference: int)
    requires other != owner
    ensures var keep := (rec: Record) => OfDay(rec, other, reference);
            multiset(Seqs.Filter(DeleteRecordsOf(recs, owner), keep)) == multiset(Seqs.Filter(recs, keep))
  {
    var keep := (rec: Record) => OfDay(rec, other, reference);
    var after := DeleteRecordsOf(recs, owner);
    Seqs.FilterCounts(after, keep);
    Seqs.FilterCounts(recs, keep);
    forall x: Record ensures multiset(Seqs.Filter(after, keep))[x] == multiset(Seqs.Filter(recs, keep))[x] {
      if keep(x) {
        assert x.owner != owner;
      }
    }
  }

  /** How the server reads the filter `{ stationId: id }` on the group collection, whose
      documents have no `stationId` field: strict query mode strips the unknown key and
      leaves the empty filter, otherwise the key is kept and matches no document. */
  datatype StrictQuery = StripUnknownKeys | MatchUnknownKeys

  /** Whether a group record matches `{ stationId: id }`. */
  predicate MatchesStationKey(mode: StrictQuery, rec: Record) {
    mode.StripUnknownKeys?
  }

  /** The group collection's `deleteByStationId(id)`: `deleteMany({ stationId: id })`. */
  function DeleteGroupRecordsByStationKey(recs: seq<Record>, mode: StrictQuery): (r: seq<Record>)
    ensures mode.StripUnknownKeys? ==> r == []
    ensures mode.MatchUnknownKeys? ==> r == recs
  {
    var r := Seqs.Filter(recs, (rec: Record) => !MatchesStationKey(mode, rec));
    if mode.MatchUnknownKeys? then
      Seqs.FilterAll(recs, (rec: Record) => !MatchesStationKey(mode, rec));
      r
    else
      Seqs.FilterNone(recs, (rec: Record) => !MatchesStationKey(mode, rec));
      r
  }

  /** Under either reading, the group collection's delete is not a delete of one group's
      records: with the key stripped it also removes another group's records, with the
      key kept it leaves the group's own records in place. */
  lemma GroupDeleteIsNotByGroup(g: string, other: string, m: Measurement)
    requires g != other
    ensures var recs := [Record(g, m), Record(other, m)];
            DeleteGroupRecordsByStationKey(recs, StripUnknownKeys) != DeleteRecordsOf(recs, g) &&
            DeleteGroupRecordsByStationKey(recs, MatchUnknownKeys) != DeleteRecordsOf(recs, g)
  {
    var recs := [Record(g, m), Record(other, m)];
    assert Record(other, m) in DeleteRecordsOf(recs, g);
    assert Record(g, m) !in DeleteRecordsOf(recs, g);
  }
}

=== FILE: outcomes.dfy ===
/** Optional values, the errors the services raise, and a Result type carrying either. */
module Outcomes {

  datatype Option<+T> = None | Some(value: T) {
    function GetOr(default: T): T {
      match this
      case Some(v) => v
      case None => default
    }
  }

  /** The exceptions that escape the services.
      - BadRequest: NestJS BadRequestException (rejected temperature or group mean).
      - NotFound: NestJS NotFoundException (a document the operation targets is missing).
      - TypeError: the JavaScript runtime error raised when code dereferences null or undefined.
      - DuplicateKey: the store refuses a document whose `_id` is already taken.
      - InvalidArgument: the object-document mapper refuses the arguments of a call. */
  datatype Error = BadRequest | NotFound | TypeError | DuplicateKey | InvalidArgument

  datatype Result<+T> = Ok(value: T) | Err(error: Error)

  /** What `deleteOne` / `deleteMany` report. */
  datatype DeleteResult = DeleteResult(deletedCount: nat)
}

=== FILE: seqs.dfy ===
/** Order-preserving filtering of sequences, the in-memory reading of a
    MongoDB query over a collection or an embedded array. */
module Seqs {

  /** The elements of `xs` that satisfy `keep`, in their original order. */
  function Filter<T(!new)>(xs: seq<T>, keep: T -> bool): (r: seq<T>)
    ensures |r| <= |xs|
    ensures forall x :: x in r <==> x in xs && keep(x)
    ensures forall i :: 0 <= i < |r| ==> keep(r[i])
  {
    if |xs| == 0 then []
    else
      assert xs == [xs[0]] + xs[1..];
      (if keep(xs[0]) then [xs[0]] else []) + Filter(xs[1..], keep)
  }

  /** Filtering keeps every copy of a kept element and no copy of a dropped one. */
  lemma {:induction false} FilterCounts<T(!new)>(xs: seq<T>, keep: T -> bool)
    ensures forall x :: multiset(Filter(xs, keep))[x] == if keep(x) then multiset(xs)[x] else 0
  {
    if |xs| > 0 {
      FilterCounts(xs[1..], keep);
      assert xs == [xs[0]] + xs[1..];
    }
  }

  /** Filtering distributes over concatenation, so it keeps the relative order. */
  lemma {:induction false} FilterAppend<T(!new)>(xs: seq<T>, ys: seq<T>, keep: T -> bool)
    ensures Filter(xs + ys, keep) == Filter(xs, keep) + Filter(ys, keep)
  {
    if |xs| == 0 {
      assert xs + ys == ys;
    } else {
      assert (xs + ys)[1..] == xs[1..] + ys;
      FilterAppend(xs[1..], ys, keep);
    }
  }

  /** Filtering one element keeps it or drops it. */
  lemma FilterOne<T(!new)>(x: T, keep: T -> bool)
    ensures Filter([x], keep) == if keep(x) then [x] else []
  {
    assert [x][1..] == [];
  }

  /** A sequence with no element is empty. */
  lemma EmptyWithoutElements<T>(xs: seq<T>)
    requires forall x :: x !in xs
    ensures xs == []
  {
    HeadIsElement(xs);
  }

  lemma HeadIsElement<T>(xs: seq<T>)
    ensures |xs| > 0 ==> xs[0] in xs
  {
  }

  /** A filter whose predicate holds of nothing in `xs` returns the empty sequence. */
  lemma FilterNone<T(!new)>(xs: seq<T>, keep: T -> bool)
    requires forall i :: 0 <= i < |xs| ==> !keep(xs[i])
    ensures Filter(xs, keep) == []
  {
  }

  /** A filter whose predicate holds of everything in `xs` returns `xs`. */
  lemma {:induction false} FilterAll<T(!new)>(xs: seq<T>, keep: T -> bool)
    requires forall i :: 0 <= i < |xs| ==> keep(xs[i])
    ensures Filter(xs, keep) == xs
  {
    if |xs| > 0 {
      FilterAll(xs[1..], keep);
    }
  }

  /** `xs.map(f)`. */
  function Map<A, B>(xs: seq<A>, f: A -> B): (r: seq<B>)
    ensures |r| == |xs|
    ensures forall i :: 0 <= i < |xs| ==> r[i] == f(xs[i])
  {
    seq(|xs|, i requires 0 <= i < |xs| => f(xs[i]))
  }

  lemma MapConcat<A, B>(xs: seq<A>, ys: seq<A>, f: A -> B)
    ensures Map(xs + ys, f) == Map(xs, f) + Map(ys, f)
  {
  }

  /** Taking out the element at `k` takes exactly that element out of the multiset. */
  lemma RemoveAtCount<T>(ys: seq<T>, k: nat)
    requires k < |ys|
    ensures multiset(ys) == multiset(ys[..k] + ys[k + 1..]) + multiset{ys[k]}
  {
    assert ys == ys[..k] + [ys[k]] + ys[k + 1..];
  }

  /** Mapping commutes with taking out the element at `k`. */
  lemma MapRemoveAt<A, B>(ys: seq<A>, k: nat, f: A -> B)
    requires k < |ys|
    ensures Map(ys[..k] + ys[k + 1..], f) == Map(ys, f)[..k] + Map(ys, f)[k + 1..]
  {
    var l, r := Map(ys[..k] + ys[k + 1..], f), Map(ys, f)[..k] + Map(ys, f)[k + 1..];
    assert |l| == |r|;
    forall i | 0 <= i < |l| ensures l[i] == r[i] {
      if i < k { assert l[i] == f(ys[i]); } else { assert l[i] == f(ys[i + 1]); }
    }
  }

  /** The image of the element at `k` is taken out of the mapped multiset with it. */
  lemma MapRemoveAtCount<A, B>(ys: seq<A>, k: nat, f: A -> B)
    requires k < |ys|
    ensures multiset(Map(ys, f)) == multiset(Map(ys[..k] + ys[k + 1..], f)) + multiset{f(ys[k])}
  {
    MapRemoveAt(ys, k, f);
    RemoveAtCount(Map(ys, f), k);
  }

  /** Taking out an element `xs` and `ys` share at their positions `0` and `k` leaves the
      rests with the same elements. */
  lemma PermutationRests<T>(xs: seq<T>, ys: seq<T>, k: nat)
    requires multiset(xs) == multiset(ys)
    requires 0 < |xs| && k < |ys| && ys[k] == xs[0]
    ensures multiset(xs[1..]) == multiset(ys[..k] + ys[k + 1..])
  {
    RemoveAtCount(ys, k);
    RemoveAtCount(xs, 0);
    assert xs[..0] + xs[1..] == xs[1..];
    assert multiset(xs[1..]) == multiset(xs) - multiset{xs[0]};
  }

  /** The image of the head is taken out of the mapped multiset with it. */
  lemma MapConsCount<A, B>(xs: seq<A>, f: A -> B)
    requires |xs| > 0
    ensures multiset(Map(xs, f)) == multiset(Map(xs[1..], f)) + multiset{f(xs[0])}
  {
    assert Map(xs, f) == [f(xs[0])] + Map(xs[1..], f);
  }

  /** A position at which an element of the multiset of `ys` occurs. */
  lemma PositionOf<T>(ys: seq<T>, x: T) returns (k: nat)
    requires x in multiset(ys)
    ensures k < |ys| && ys[k] == x
  {
    assert x in ys;
    k :| 0 <= k < |ys| && ys[k] == x;
  }

  /** Mapping two arrangements of the same elements gives two arrangements of the same results. */
  lemma {:induction false} MapPermutation<A, B>(xs: seq<A>, ys: seq<A>, f: A -> B)
    requires multiset(xs) == multiset(ys)
    ensures multiset(Map(xs, f)) == multiset(Map(ys, f))
    decreases |xs|
  {
    if |xs| == 0 {
      assert |ys| == |multiset(ys)|;
    } else {
      var k := PositionOf(ys, xs[0]);
      var rest := ys[..k] + ys[k + 1..];
      MapConsCount(xs, f);
      assert multiset(Map(ys, f)) == multiset(Map(rest, f)) + multiset{f(xs[0])} by {
        MapRemoveAtCount(ys, k, f);
      }
      assert multiset(xs[1..]) == multiset(rest) by {
        PermutationRests(xs, ys, k);
      }
      MapPermutation(xs[1..], rest, f);
    }
  }

  /** Filtering two arrangements of the same elements gives two arrangements of the same survivors. */
  lemma FilterPermutation<T(!new)>(xs: seq<T>, ys: seq<T>, keep: T -> bool)
    requires multiset(xs) == multiset(ys)
    ensures multiset(Filter(xs, keep)) == multiset(Filter(ys, keep))
  {
    FilterCounts(xs, keep);
    FilterCounts(ys, keep);
    var a := multiset(Filter(xs, keep));
    var b := multiset(Filter(ys, keep));
    assert forall x :: a[x] == b[x];
  }
}

=== FILE: station_manager.dfy ===
/** The station service used by the transactional orchestrators: reading a
    measurement into a station, setting and clearing its group pointer, deleting
    it, and the two station queries. Every write goes with the session the
    caller passes. */
module StationManager {
  import opened Outcomes
  import opened JsValues
  import opened Documents
  import opened Transactions
  import MeasurementMapper
  import DayWindow
  import Seqs

  /** The reading `addMeasurement` stores: dated `now`, temperature and humidity as
      given, air pressure as given unless nullish, in which case 0. */
  function AcceptedMeasurement(dto: MeasurementMapper.MeasurementDto, now: int): (r: Measurement)
    ensures r.date == now && r.temperature == dto.temperature && r.humidity == dto.humidity
    ensures Nullish(dto.airPressure) ==> r.airPressure == Num(0.0)
    ensures !Nullish(dto.airPressure) ==> r.airPressure == dto.airPressure
  {
    Measurement(now, dto.temperature, dto.humidity, Coalesce(dto.airPressure, Num(0.0)))
  }

  /** The object handed to the measurement collection's `create`. */
  function RecordDto(dto: MeasurementMapper.MeasurementDto, now: int): (r: MeasurementMapper.MeasurementDto)
    ensures MeasurementMapper.ToMeasurement(r, now) == AcceptedMeasurement(dto, now)
  {
    MeasurementMapper.MapStationMeasurementDto(AcceptedMeasurement(dto, now))
  }

  /** The two writes of an accepted reading, as seen by the session that issues them:
      the history record, then the snapshot. */
  function RecordAndSnapshot(db: Store, id: string, dto: MeasurementMapper.MeasurementDto, now: int): (r: Store)
    ensures r.stationHistory == db.stationHistory + [Record(id, AcceptedMeasurement(dto, now))]
    ensures r.stations == SetSnapshot(db.stations, id, AcceptedMeasurement(dto, now))
    ensures r.groups == db.groups && r.groupHistory == db.groupHistory
  {
    var m := AcceptedMeasurement(dto, now);
    var recorded := Apply(db, AppendStationRecord(id, RecordDto(dto, now), now));
    assert recorded == db.(stationHistory := db.stationHistory + [Record(id, m)]);
    var r := Apply(recorded, SetStationSnapshot(id, m));
    assert r == recorded.(stations := SetSnapshot(db.stations, id, m));
    r
  }

  /** What `mapStationResponseDto` builds from a station document: its id, its location,
      its snapshot through `buildMeasurement`, and its pointer. It has no measurements. */
  datatype StationResponse = StationResponse(id: string, location: Location,
                                             current: MeasurementMapper.MeasurementDto, groupRef: Option<string>)

  /** `mapStationResponseDto`: copies the location field by field, so a station stored
      without a location makes it throw. */
  function MapStationResponseDto(st: Station): (r: Result<StationResponse>)
    ensures r.Err? <==> st.location.None?
    ensures r.Err? ==> r.error == TypeError
    ensures r.Ok? ==> r.value.id == st.id && r.value.location == st.location.value && r.value.groupRef == st.groupRef
    ensures r.Ok? ==> r.value.current == MeasurementMapper.BuildMeasurement(st.current)
  {
    match st.location
    case None => Err(TypeError)
    case Some(loc) => Ok(StationResponse(st.id, loc, MeasurementMapper.BuildMeasurement(st.current), st.groupRef))
  }

  /** The response tells two located stations apart exactly when they differ in
      something other than their embedded measurements. */
  lemma ResponseIsStationWithoutMeasurements(a: Station, b: Station)
    requires a.location.Some? && b.location.Some?
    ensures MapStationResponseDto(a) == MapStationResponseDto(b) <==>
            a.(measurements := []) == b.(measurements := [])
  {
    if MapStationResponseDto(a) == MapStationResponseDto(b) {
      if a.current.Some? && b.current.Some? {
        MeasurementMapper.MapIsInjective(a.current.value, b.current.value);
      }
    }
  }

  /** `stations.map(mapStationResponseDto)`: every station's response, or TypeError
      when one of them has no location. */
  function MapStationResponses(ss: seq<Station>): (r: Result<seq<StationResponse>>)
    ensures r.Ok? <==> forall i :: 0 <= i < |ss| ==> ss[i].location.Some?
    ensures r.Err? ==> r.error == TypeError
    ensures r.Ok? ==> |r.value| == |ss|
    ensures r.Ok? ==> forall i :: 0 <= i < |ss| ==> Ok(r.value[i]) == MapStationResponseDto(ss[i])
  {
    if |ss| == 0 then Ok([])
    else
      match MapStationResponseDto(ss[0])
      case Err(e) => Err(e)
      case Ok(v) =>
        match MapStationResponses(ss[1..])
        case Err(e) => Err(e)
        case Ok(vs) =>
          assert forall i :: 1 <= i < |ss| ==> ss[i] == ss[1..][i - 1];
          Ok([v] + vs)
  }

  /** The result of `addMeasurement`, and the group whose recompute it starts
      without awaiting it (if any). */
  datatype AddOutcome = AddOutcome(result: Result<StationResponse>, ctx: Ctx, recompute: Option<string>)

  /** `addMeasurement`. An invalid temperature is refused before any write. Otherwise
      the reading is appended to the station's history, then set as the station's
      snapshot; a missing station is reported only after the append. A station
      with a truthy group pointer starts that group's recompute. The updated station
      is then mapped to its response, which throws, after both writes, for a station
      without a location. */
  function AddMeasurement(ctx: Ctx, s: Session, id: string, dto: MeasurementMapper.MeasurementDto, now: int)
    : (r: AddOutcome)
    ensures r.result == Err(BadRequest) <==> RejectedByPositivityGuard(dto.temperature)
    ensures RejectedByPositivityGuard(dto.temperature) ==> r.ctx == ctx && r.recompute.None?
    ensures !RejectedByPositivityGuard(dto.temperature) ==>
      View(r.ctx, s).stationHistory == View(ctx, s).stationHistory + [Record(id, AcceptedMeasurement(dto, now))]
    ensures !RejectedByPositivityGuard(dto.temperature) && FindStation(View(ctx, s).stations, id).None? ==>
      r.result == Err(NotFound) && View(r.ctx, s).stations == View(ctx, s).stations && r.recompute.None?
    ensures !RejectedByPositivityGuard(dto.temperature) && FindStation(View(ctx, s).stations, id).Some? ==>
      var updated := FindStation(View(ctx, s).stations, id).value.(current := Some(AcceptedMeasurement(dto, now)));
      FindStation(View(r.ctx, s).stations, id) == Some(updated) &&
      r.result == MapStationResponseDto(updated) &&
      (r.recompute.Some? <==> IsGrouped(updated)) &&
      (r.recompute.Some? ==> updated.groupRef == Some(r.recompute.value))
    ensures r.result.Ok? <==>
      !RejectedByPositivityGuard(dto.temperature) && FindStation(View(ctx, s).stations, id).Some? &&
      FindStation(View(ctx, s).stations, id).value.location.Some?
    ensures r.result == Err(TypeError) <==>
      !RejectedByPositivityGuard(dto.temperature) && FindStation(View(ctx, s).stations, id).Some? &&
      FindStation(View(ctx, s).stations, id).value.location.None?
    ensures forall other :: other != id ==>
      FindStation(View(r.ctx, s).stations, other) == FindStation(View(ctx, s).stations, other)
    ensures View(r.ctx, s).groups == View(ctx, s).groups
    ensures View(r.ctx, s).groupHistory == View(ctx, s).groupHistory
    ensures s.InSession? ==> r.ctx.committed == ctx.committed
    ensures ValidCtx(ctx) ==> ValidCtx(r.ctx)
  {
    if RejectedByPositivityGuard(dto.temperature) then AddOutcome(Err(BadRequest), ctx, None)
    else
      var m := AcceptedMeasurement(dto, now);
      var appended := Perform(ctx, s, AppendStationRecord(id, RecordDto(dto, now), now));
      var updated := Perform(appended, s, SetStationSnapshot(id, m));
      assert View(updated, s) == RecordAndSnapshot(View(ctx, s), id, dto, now);
      match FindStation(View(updated, s).stations, id)
      case None => AddOutcome(Err(NotFound), updated, None)
      case Some(st) => AddOutcome(MapStationResponseDto(st), updated, if IsGrouped(st) then Some(st.groupRef.value) else None)
  }

  /** The reading appended to the history is the one stored as the snapshot, whether or
      not the response can be built. */
  lemma HistoryRecordIsSnapshot(ctx: Ctx, s: Session, id: string, dto: MeasurementMapper.MeasurementDto, now: int)
    requires !RejectedByPositivityGuard(dto.temperature) && FindStation(View(ctx, s).stations, id).Some?
    ensures var r := AddMeasurement(ctx, s, id, dto, now);
            var h := View(r.ctx, s).stationHistory;
            |h| > 0 && h[|h| - 1].owner == id &&
            Some(h[|h| - 1].m) == FindStation(View(r.ctx, s).stations, id).value.current
  {
  }

  /** Any temperature greater than zero is accepted; every other value is refused. */
  lemma AcceptsExactlyPositiveTemperatures(ctx: Ctx, s: Session, id: string, dto: MeasurementMapper.MeasurementDto,
                                           now: int)
    ensures AddMeasurement(ctx, s, id, dto, now).result == Err(BadRequest) <==> !PresentAndPositive(dto.temperature)
  {
    PositivityGuardRejectsExactly(dto.temperature);
  }

  /** `delete`: `deleteOne` on the station, NotFound when nothing was deleted. */
  function Delete(ctx: Ctx, s: Session, id: string): (r: Step<DeleteResult>)
    ensures r.result.Ok? <==> FindStation(View(ctx, s).stations, id).Some?
    ensures r.result.Err? ==> r.result.error == NotFound && View(r.ctx, s) == View(ctx, s)
    ensures r.result.Ok? ==> r.result.value.deletedCount == 1
    ensures Valid(View(ctx, s)) ==> FindStation(View(r.ctx, s).stations, id).None?
    ensures forall other :: other != id ==>
      FindStation(View(r.ctx, s).stations, other) == FindStation(View(ctx, s).stations, other)
    ensures View(r.ctx, s).groups == View(ctx, s).groups
    ensures View(r.ctx, s).stationHistory == View(ctx, s).stationHistory
    ensures View(r.ctx, s).groupHistory == View(ctx, s).groupHistory
    ensures s.InSession? ==> r.ctx.committed == ctx.committed
    ensures ValidCtx(ctx) ==> ValidCtx(r.ctx)
  {
    var found := FindStation(View(ctx, s).stations, id).Some?;
    var after := Perform(ctx, s, DeleteStationDoc(id));
    if found then Step(Ok(DeleteResult(1)), after) else Step(Err(NotFound), after)
  }

  /** `addStationGroupId`: `$set` of the group pointer, NotFound on a missing station. */
  function AddStationGroupId(ctx: Ctx, s: Session, id: string, gid: string): (r: Step<Station>)
    ensures r.result.Ok? <==> FindStation(View(ctx, s).stations, id).Some?
    ensures r.result.Err? ==> r.result.error == NotFound && View(r.ctx, s) == View(ctx, s)
    ensures r.result.Ok? ==>
      r.result.value == FindStation(View(ctx, s).stations, id).value.(groupRef := Some(gid)) &&
      FindStation(View(r.ctx, s).stations, id) == Some(r.result.value)
    ensures View(r.ctx, s) == View(ctx, s).(stations := SetGroupRef(View(ctx, s).stations, id, Some(gid)))
    ensures s.InSession? ==> r.ctx.committed == ctx.committed
    ensures s.NoSession? ==> r.ctx.inTx == ctx.inTx.(stations := SetGroupRef(ctx.inTx.stations, id, Some(gid)))
    ensures ValidCtx(ctx) ==> ValidCtx(r.ctx)
  {
    var after := Perform(ctx, s, SetStationGroup(id, gid));
    match FindStation(View(after, s).stations, id)
    case None => Step(Err(NotFound), after)
    case Some(st) => Step(Ok(st), after)
  }

  /** `deleteStationGroupId`: `$unset` of the group pointer, NotFound on a missing station. */
  function DeleteStationGroupId(ctx: Ctx, s: Session, id: string): (r: Step<Station>)
    ensures r.result.Ok? <==> FindStation(View(ctx, s).stations, id).Some?
    ensures r.result.Err? ==> r.result.error == NotFound && View(r.ctx, s) == View(ctx, s)
    ensures r.result.Ok? ==>
      r.result.value == FindStation(View(ctx, s).stations, id).value.(groupRef := None) &&
      FindStation(View(r.ctx, s).stations, id) == Some(r.result.value)
    ensures View(r.ctx, s) == View(ctx, s).(stations := SetGroupRef(View(ctx, s).stations, id, None))
    ensures s.InSession? ==> r.ctx.committed == ctx.committed
    ensures s.NoSession? ==> r.ctx.inTx == ctx.inTx.(stations := SetGroupRef(ctx.inTx.stations, id, None))
    ensures ValidCtx(ctx) ==> ValidCtx(r.ctx)
  {
    var after := Perform(ctx, s, UnsetStationGroup(id));
    match FindStation(View(after, s).stations, id)
    case None => Step(Err(NotFound), after)
    case Some(st) => Step(Ok(st), after)
  }

  /** Clearing a pointer undoes setting it, on a station that had none. */
  lemma DeleteStationGroupIdUndoesAdd(ctx: Ctx, s: Session, id: string, gid: string)
    requires FindStation(View(ctx, s).stations, id).Some?
    requires FindStation(View(ctx, s).stations, id).value.groupRef.None?
    requires Valid(View(ctx, s))
    ensures View(DeleteStationGroupId(AddStationGroupId(ctx, s, id, gid).ctx, s, id).ctx, s) == View(ctx, s)
  {
    var v := View(ctx, s);
    var st := FindStation(v.stations, id).value;
    var i := IndexOf(v.stations, id).value;
    FindUnique(v.stations, i);
    var once := SetGroupRef(v.stations, id, Some(gid));
    var twice := SetGroupRef(once, id, None);
    assert |twice| == |v.stations|;
    forall k | 0 <= k < |twice|
      ensures twice[k] == v.stations[k]
    {
      FindUnique(v.stations, k);
      IndexOfSameIdsEverywhere(once, v.stations);
      IndexOfSameIdsEverywhere(twice, v.stations);
      assert UniqueIds(once) && UniqueIds(twice);
      FindUnique(once, k);
      FindUnique(twice, k);
      if v.stations[k].id != id {
        assert FindStation(twice, v.stations[k].id) == FindStation(v.stations, v.stations[k].id);
      }
    }
  }

  /** The truthiness of `stationGroupId`: the stations `findAllNotGrouped` lists. */
  predicate NotGrouped(st: Station) {
    !IsGrouped(st)
  }

  /** The query of `findAllNotGrouped`: the stations whose pointer is absent, null or
      the empty string, in natural order. */
  function NotGroupedStations(ss: seq<Station>): (r: seq<Station>)
    ensures forall st :: st in r <==> st in ss && (st.groupRef.None? || st.groupRef == Some(""))
    ensures |r| <= |ss|
    ensures forall st :: multiset(r)[st] == (if NotGrouped(st) then multiset(ss)[st] else 0)
  {
    Seqs.FilterCounts(ss, NotGrouped);
    Seqs.Filter(ss, NotGrouped)
  }

  /** The listing keeps the stored order: listing two runs of stations one after the
      other gives the listing of their concatenation. */
  lemma NotGroupedStationsAppend(a: seq<Station>, b: seq<Station>)
    ensures NotGroupedStations(a + b) == NotGroupedStations(a) + NotGroupedStations(b)
  {
    Seqs.FilterAppend(a, b, NotGrouped);
  }

  /** One station is listed once if it is ungrouped and not at all otherwise. */
  lemma NotGroupedStationsOne(st: Station)
    ensures NotGroupedStations([st]) == if NotGrouped(st) then [st] else []
  {
    Seqs.FilterOne(st, NotGrouped);
  }

  /** `findAllNotGrouped`: the responses of the ungrouped stations, or TypeError when one
      of them has no location. */
  function FindAllNotGrouped(ss: seq<Station>): (r: Result<seq<StationResponse>>)
    ensures r.Ok? <==> forall st :: st in ss && NotGrouped(st) ==> st.location.Some?
    ensures r.Err? ==> r.error == TypeError
    ensures r.Ok? ==> |r.value| == |NotGroupedStations(ss)|
    ensures r.Ok? ==> forall i :: 0 <= i < |r.value| ==>
      Ok(r.value[i]) == MapStationResponseDto(NotGroupedStations(ss)[i])
  {
    var listed := NotGroupedStations(ss);
    assert forall i :: 0 <= i < |listed| ==> listed[i] in listed;
    MapStationResponses(listed)
  }

  /** `findEntitiesByStationGroupId`: the stations whose pointer equals `gid`. */
  function FindEntitiesByStationGroupId(ss: seq<Station>, gid: string): (r: seq<Station>)
    ensures forall st :: st in r <==> st in ss && st.groupRef == Some(gid)
    ensures forall i :: 0 <= i < |r| ==> r[i].groupRef == Some(gid)
  {
    Seqs.Filter(ss, (st: Station) => st.groupRef == Some(gid))
  }

  /** A station is listed as ungrouped or as a member of some non-empty group id, never both. */
  lemma GroupedAndUngroupedPartition(ss: seq<Station>, gid: string)
    requires gid != ""
    ensures forall st :: st in FindEntitiesByStationGroupId(ss, gid) ==> st !in NotGroupedStations(ss)
    ensures forall st :: st in ss ==> st in NotGroupedStations(ss) || IsGrouped(st)
  {
  }

  /** After clearing its pointer a station is listed as ungrouped; after setting a
      non-empty one it is not. */
  lemma PointerChangesMoveStation(ctx: Ctx, s: Session, id: string, gid: string)
    requires gid != ""
    requires FindStation(View(ctx, s).stations, id).Some?
    ensures var r := DeleteStationGroupId(ctx, s, id);
            r.result.value in NotGroupedStations(View(r.ctx, s).stations)
    ensures var r := AddStationGroupId(ctx, s, id, gid);
            r.result.value !in NotGroupedStations(View(r.ctx, s).stations) &&
            r.result.value in FindEntitiesByStationGroupId(View(r.ctx, s).stations, gid)
  {
  }

  /** `findByIdWithCurrentDayMeasurements` as written: the query cuts the embedded
      measurements to today's UTC day window, but the response mapping drops them, so the
      caller gets the station's response only. NotFound on a missing station, TypeError
      on one without a location. */
  function FindByIdWithCurrentDayMeasurements(ss: seq<Station>, id: string, now: int): (r: Result<StationResponse>)
    ensures r == Err(NotFound) <==> FindStation(ss, id).None?
    ensures r == Err(TypeError) <==> FindStation(ss, id).Some? && FindStation(ss, id).value.location.None?
    ensures FindStation(ss, id).Some? ==> r == MapStationResponseDto(FindStation(ss, id).value)
  {
    match FindStation(ss, id)
    case None => Err(NotFound)
    case Some(st) => MapStationResponseDto(st.(measurements := MeasurementsOfDay(st.measurements, now)))
  }

  /** `findByIdWithCurrentDayMeasurements` as evidently intended: the station with its
      embedded measurements cut to today's UTC day window, and otherwise as stored. Its
      response is the one the call as written returns. */
  function FindByIdWithCurrentDayMeasurementsIntended(ss: seq<Station>, id: string, now: int): (r: Result<Station>)
    ensures r == Err(NotFound) <==> FindStation(ss, id).None?
    ensures r == Err(TypeError) <==> FindStation(ss, id).Some? && FindStation(ss, id).value.location.None?
    ensures r.Ok? ==> r.value.(measurements := []) == FindStation(ss, id).value.(measurements := [])
    ensures r.Ok? ==> forall m :: m in r.value.measurements <==>
      m in FindStation(ss, id).value.measurements && DayWindow.InDayWindow(m.date, now)
    ensures r.Ok? ==> MapStationResponseDto(r.value) == FindByIdWithCurrentDayMeasurements(ss, id, now)
  {
    match FindStation(ss, id)
    case None => Err(NotFound)
    case Some(st) =>
      if st.location.None? then Err(TypeError)
      else Ok(st.(measurements := MeasurementsOfDay(st.measurements, now)))
  }

  /** As written, the day filter never reaches the caller: a station with a measurement
      on one day and none on another gets the same answer for both days, where the
      intended answer lists the measurement on its own day only. */
  lemma DayFilterIsDiscarded(ss: seq<Station>, id: string, m: Measurement, other: int)
    requires FindStation(ss, id).Some? && FindStation(ss, id).value.location.Some?
    requires m in FindStation(ss, id).value.measurements
    requires !DayWindow.InDayWindow(m.date, other)
    ensures FindByIdWithCurrentDayMeasurements(ss, id, m.date) == FindByIdWithCurrentDayMeasurements(ss, id, other)
    ensures m in FindByIdWithCurrentDayMeasurementsIntended(ss, id, m.date).value.measurements
    ensures m !in FindByIdWithCurrentDayMeasurementsIntended(ss, id, other).value.measurements
  {
    DayWindow.WindowsCover(m.date);
  }

  /** The measurements the intended call keeps are exactly those taken on the same UTC
      day as `now`. */
  lemma CurrentDayIsSameUtcDay(ss: seq<Station>, id: string, now: int, m: Measurement)
    requires FindStation(ss, id).Some? && FindStation(ss, id).value.location.Some?
    ensures m in FindByIdWithCurrentDayMeasurementsIntended(ss, id, now).value.measurements <==>
            m in FindStation(ss, id).value.measurements &&
            DayWindow.StartOfUtcDay(m.date) == DayWindow.StartOfUtcDay(now)
  {
    DayWindow.InDayWindowIsSameDay(m.date, now);
  }
}

=== FILE: station_orchestrator.dfy ===
/** The station orchestrator: the two station operations that run in one
    transaction, committing on success and rolling the session's writes back
    when the body throws. */
module StationOrchestrator {
  import opened Outcomes
  import opened JsValues
  import opened Documents
  import opened Transactions
  import MeasurementMapper
  import StationManager

  /** `deleteStationWithMeasurements`: deletes the station's history, then the station,
      both with the session. */
  function DeleteStationWithMeasurements(db: Store, id: string): (r: Done<DeleteResult>)
    ensures r.result.Ok? <==> FindStation(db.stations, id).Some?
    ensures r.result.Err? ==> r.result.error == NotFound && r.db == db
    ensures r.result.Ok? ==> r.db.stationHistory == DeleteRecordsOf(db.stationHistory, id)
    ensures r.result.Ok? ==> RecordsOf(r.db.stationHistory, id) == []
    ensures r.result.Ok? && Valid(db) ==> FindStation(r.db.stations, id).None?
    ensures forall other :: other != id ==> FindStation(r.db.stations, other) == FindStation(db.stations, other)
    ensures r.db.groups == db.groups && r.db.groupHistory == db.groupHistory
    ensures Valid(db) ==> Valid(r.db)
  {
    var purged := Perform(Begin(db), InSession, DeleteStationRecords(id));
    Finish(StationManager.Delete(purged, InSession, id))
  }

  /** Deleting the same station twice: the second call fails with NotFound and changes nothing. */
  lemma SecondDeleteFails(db: Store, id: string)
    requires Valid(db)
    ensures var once := DeleteStationWithMeasurements(db, id);
            var twice := DeleteStationWithMeasurements(once.db, id);
            twice.result == Err(NotFound) && twice.db == once.db
  {
  }

  /** The result of `addMeasurementAndPropagate`, and the group recompute the call
      starts without awaiting it. */
  datatype Propagated = Propagated(done: Done<StationManager.StationResponse>, recompute: Option<string>)

  /** `addMeasurementAndPropagate`: the station's `addMeasurement` with the session. A
      refused reading, a missing station and a station without a location all abort the
      transaction, so the store is left as it was; a located station commits the record
      and the snapshot. The recompute of the station's group is started even when the
      response then throws. */
  function AddMeasurementAndPropagate(db: Store, id: string, dto: MeasurementMapper.MeasurementDto, now: int)
    : (r: Propagated)
    ensures RejectedByPositivityGuard(dto.temperature) ==>
      r.done.result == Err(BadRequest) && r.done.db == db && r.recompute.None?
    ensures !RejectedByPositivityGuard(dto.temperature) && FindStation(db.stations, id).None? ==>
      r.done.result == Err(NotFound) && r.done.db == db && r.recompute.None?
    ensures !RejectedByPositivityGuard(dto.temperature) && FindStation(db.stations, id).Some? &&
            FindStation(db.stations, id).value.location.None? ==>
      r.done.result == Err(TypeError) && r.done.db == db
    ensures r.done.result.Ok? <==>
      !RejectedByPositivityGuard(dto.temperature) && FindStation(db.stations, id).Some? &&
      FindStation(db.stations, id).value.location.Some?
    ensures r.done.result.Ok? ==>
      var updated := FindStation(db.stations, id).value.(current := Some(StationManager.AcceptedMeasurement(dto, now)));
      r.done.db.stationHistory == db.stationHistory + [Record(id, StationManager.AcceptedMeasurement(dto, now))] &&
      FindStation(r.done.db.stations, id) == Some(updated) &&
      r.done.result == StationManager.MapStationResponseDto(updated)
    ensures r.recompute.Some? <==>
      !RejectedByPositivityGuard(dto.temperature) && FindStation(db.stations, id).Some? &&
      IsGrouped(FindStation(db.stations, id).value)
    ensures r.done.db.groups == db.groups && r.done.db.groupHistory == db.groupHistory
    ensures Valid(db) ==> Valid(r.done.db)
  {
    var out := StationManager.AddMeasurement(Begin(db), InSession, id, dto, now);
    Propagated(Finish(Step(out.result, out.ctx)), out.recompute)
  }

  /** Outside a transaction a reading for a missing station leaves an orphan history
      record behind; the transactional call rolls it back. */
  lemma TransactionRemovesOrphanRecord(db: Store, id: string, dto: MeasurementMapper.MeasurementDto, now: int)
    requires !RejectedByPositivityGuard(dto.temperature)
    requires FindStation(db.stations, id).None?
    ensures var plain := StationManager.AddMeasurement(Begin(db), NoSession, id, dto, now);
            plain.result == Err(NotFound) &&
            Record(id, StationManager.AcceptedMeasurement(dto, now)) in plain.ctx.committed.stationHistory &&
            AddMeasurementAndPropagate(db, id, dto, now).done.db.stationHistory == db.stationHistory
  {
    var plain := StationManager.AddMeasurement(Begin(db), NoSession, id, dto, now);
    var h := plain.ctx.committed.stationHistory;
    assert h[|h| - 1] == Record(id, StationManager.AcceptedMeasurement(dto, now));
  }
}

=== FILE: transactions.dfy ===
/** The writes the services issue, and the transaction they may run in.

    A transaction is opened on the committed store. A write issued with the
    session changes only the transaction's view; a write issued without it is
    committed at once, and the open transaction sees it too. Reads with the
    session see the transaction's view, reads without it the committed store.
    When the transaction body succeeds its view is committed; when it throws,
    the view is dropped and only the writes issued without the session remain. */
module Transactions {
  import opened Outcomes
  import opened Documents
  import MeasurementMapper
  import MeasurementStores

  /** Whether a call passes the transaction's session. */
  datatype Session = NoSession | InSession

  /** The store as the open transaction sees it, and the store as committed. */
  datatype Ctx = Ctx(inTx: Store, committed: Store)

  /** The outcome of one service call inside a transaction body. */
  datatype Step<+T> = Step(result: Result<T>, ctx: Ctx)

  /** The outcome of a whole operation on the store. */
  datatype Done<+T> = Done(result: Result<T>, db: Store)

  /** One MongoDB write, by collection and operator. */
  datatype Write =
    | AppendStationRecord(owner: string, dto: MeasurementMapper.MeasurementDto, now: int)
    | DeleteStationRecords(owner: string)
    | AppendGroupRecord(owner: string, dto: MeasurementMapper.MeasurementDto, now: int)
    | DeleteGroupRecords(mode: MeasurementStores.StrictQuery)
    | SetStationSnapshot(id: string, m: Measurement)
    | SetStationGroup(id: string, gid: string)
    | UnsetStationGroup(id: string)
    | DeleteStationDoc(id: string)
    | InsertGroup(gid: string, g: Group)
    | AddToRoster(gid: string, sid: string)
    | PullFromRoster(gid: string, sid: string)
    | PushToRoster(gid: string, sid: string)
    | PushGroupMeasurement(gid: string, m: Measurement)
    | SetGroupSnapshot(gid: string, m: Measurement)
    | DeleteGroupDoc(gid: string)

  /** `findByIdAndUpdate` on the groups collection: `f` applied to the group `gid`, if there is one. */
  function UpdateGroup(groups: map<string, Group>, gid: string, f: Group -> Group): (r: map<string, Group>)
    ensures gid in groups ==> r == groups[gid := f(groups[gid])]
    ensures gid !in groups ==> r == groups
  {
    if gid in groups then groups[gid := f(groups[gid])] else groups
  }

  /** The effect of one write on a store. Station writes keep the station ids unique. */
  function Apply(db: Store, w: Write): (r: Store)
    ensures Valid(db) ==> Valid(r)
    ensures w.SetStationSnapshot? || w.SetStationGroup? || w.UnsetStationGroup? || w.DeleteStationDoc? ||
            r.stations == db.stations
  {
    match w
    case AppendStationRecord(owner, dto, now) =>
      db.(stationHistory := MeasurementStores.CreateRecord(db.stationHistory, owner, dto, now))
    case DeleteStationRecords(owner) =>
      db.(stationHistory := DeleteRecordsOf(db.stationHistory, owner))
    case AppendGroupRecord(owner, dto, now) =>
      db.(groupHistory := MeasurementStores.CreateRecord(db.groupHistory, owner, dto, now))
    case DeleteGroupRecords(mode) =>
      db.(groupHistory := MeasurementStores.DeleteGroupRecordsByStationKey(db.groupHistory, mode))
    case SetStationSnapshot(id, m) => db.(stations := SetSnapshot(db.stations, id, m))
    case SetStationGroup(id, gid) => db.(stations := SetGroupRef(db.stations, id, Some(gid)))
    case UnsetStationGroup(id) => db.(stations := SetGroupRef(db.stations, id, None))
    case DeleteStationDoc(id) => db.(stations := RemoveStation(db.stations, id))
    case InsertGroup(gid, g) => db.(groups := db.groups[gid := g])
    case AddToRoster(gid, sid) =>
      db.(groups := UpdateGroup(db.groups, gid, (g: Group) => g.(roster := AddToSet(g.roster, sid))))
    case PullFromRoster(gid, sid) =>
      db.(groups := UpdateGroup(db.groups, gid, (g: Group) => g.(roster := Pull(g.roster, sid))))
    case PushToRoster(gid, sid) =>
      db.(groups := UpdateGroup(db.groups, gid, (g: Group) => g.(roster := g.roster + [sid])))
    case PushGroupMeasurement(gid, m) =>
      db.(groups := UpdateGroup(db.groups, gid, (g: Group) => g.(measurements := g.measurements + [m])))
    case SetGroupSnapshot(gid, m) =>
      db.(groups := UpdateGroup(db.groups, gid, (g: Group) => g.(current := Some(m))))
    case DeleteGroupDoc(gid) => db.(groups := db.groups - {gid})
  }

  /** `$set: { currentMeasurement }` on the group `gid`, as a store update. */
  function WithGroupSnapshot(db: Store, gid: string, m: Measurement): (r: Store)
    ensures r == Apply(db, SetGroupSnapshot(gid, m))
    ensures r.stations == db.stations && r.stationHistory == db.stationHistory && r.groupHistory == db.groupHistory
    ensures gid in db.groups ==> r.groups == db.groups[gid := db.groups[gid].(current := Some(m))]
    ensures gid !in db.groups ==> r == db
  {
    Apply(db, SetGroupSnapshot(gid, m))
  }

  /** `$addToSet` (with `add`) or `$pull` (without) of `sid` on the roster of group `gid`. */
  function WithRosterChange(db: Store, gid: string, sid: string, add: bool): (r: Store)
    ensures r == Apply(db, if add then AddToRoster(gid, sid) else PullFromRoster(gid, sid))
    ensures r.stations == db.stations && r.stationHistory == db.stationHistory && r.groupHistory == db.groupHistory
    ensures r.groups.Keys == db.groups.Keys
    ensures gid in db.groups ==> r.groups == db.groups[gid := db.groups[gid].(roster :=
      if add then AddToSet(db.groups[gid].roster, sid) else Pull(db.groups[gid].roster, sid))]
    ensures gid !in db.groups ==> r == db
  {
    Apply(db, if add then AddToRoster(gid, sid) else PullFromRoster(gid, sid))
  }

  predicate ValidCtx(ctx: Ctx) {
    Valid(ctx.inTx) && Valid(ctx.committed)
  }

  /** `session.startTransaction()` on the committed store. */
  function Begin(db: Store): (r: Ctx)
    ensures r.inTx == db && r.committed == db
  {
    Ctx(db, db)
  }

  /** What a read issued with or without the session sees. */
  function View(ctx: Ctx, s: Session): Store {
    if s.InSession? then ctx.inTx else ctx.committed
  }

  /** Issues a write with or without the session. */
  function Perform(ctx: Ctx, s: Session, w: Write): (r: Ctx)
    ensures r.inTx == Apply(ctx.inTx, w)
    ensures s.InSession? ==> r.committed == ctx.committed
    ensures s.NoSession? ==> r.committed == Apply(ctx.committed, w)
    ensures View(r, s) == Apply(View(ctx, s), w)
    ensures ValidCtx(ctx) ==> ValidCtx(r)
  {
    if s.InSession? then ctx.(inTx := Apply(ctx.inTx, w))
    else Ctx(Apply(ctx.inTx, w), Apply(ctx.committed, w))
  }

  /** The end of `execute`: commit the transaction's view when the body succeeded,
      abort it when the body threw. */
  function Finish<T>(st: Step<T>): (r: Done<T>)
    ensures r.result == st.result
    ensures st.result.Ok? ==> r.db == st.ctx.inTx
    ensures st.result.Err? ==> r.db == st.ctx.committed
  {
    if st.result.Ok? then Done(st.result, st.ctx.inTx) else Done(st.result, st.ctx.committed)
  }

  /** Outside a transaction the two views coincide, and a write issued without a
      session keeps them coinciding: it changes the store exactly as `Apply` says. */
  lemma SessionlessKeepsViewsEqual(db: Store, w: Write)
    ensures Perform(Begin(db), NoSession, w) == Begin(Apply(db, w))
  {
  }

  /** A write issued with the session is gone after an abort. */
  lemma SessionWriteIsUndoneByAbort<T>(db: Store, w: Write, e: Error)
    ensures Finish<T>(Step(Err(e), Perform(Begin(db), InSession, w))).db == db
  {
  }

  /** A write issued without the session survives an abort. */
  lemma SessionlessWriteSurvivesAbort<T>(db: Store, w: Write, e: Error)
    ensures Finish<T>(Step(Err(e), Perform(Begin(db), NoSession, w))).db == Apply(db, w)
  {
  }

  /** Creating a group measurement record never passes a session, so a transaction
      that creates one and then aborts keeps it. */
  lemma GroupRecordCreateIsNeverRolledBack<T>(ctx: Ctx, owner: string, dto: MeasurementMapper.MeasurementDto,
                                              now: int, e: Error)
    ensures var after := Perform(ctx, NoSession, AppendGroupRecord(owner, dto, now));
            Finish<T>(Step(Err(e), after)).db.groupHistory ==
              MeasurementStores.CreateRecord(ctx.committed.groupHistory, owner, dto, now)
  {
  }
}
